=== FILE: README.md ===
# Discord music bot — a Dafny model of its playback core

The bot keeps, for every Discord guild, a queue of tracks, the song now
playing, a bounded history of the authors it played, a bounded history of
the (title, author) pairs it recommended, and two per-guild switches
(recommendations, replay). The music cog drives a voice player from that
state: the play / playnext command queues what a search or a link finds and
starts playback when the guild is idle, and the track-end event either
replays the current song (replay mode) or advances through the queue. The
library cog saves the queue into named libraries and loads them back. Those
libraries live in one JSON file per guild. The recommendation cog picks
authors from the play history at random and builds a batch of tracks by
searching for them.

The model is functional. The whole queue manager is one immutable
`QueueState` value, and every operation is a function from state to state.
The voice engine is represented by explicit inputs:

- whether a play request succeeds (`playOk`);
- what a search or a fetch returns (`search`, `fetch`);
- whether the player is connected.

The engine's effects come back as a list of `Command`s. The library file is
an abstract `StoreFile`. An `Io` value decides whether recovering a corrupt
file and writing a new one succeed. The randomness of `random.shuffle` and
`random.sample` is nondeterministic choice: any permutation, or any sample of
the right size.

Modules, one per source file:

| module | file | content |
|---|---|---|
| `Common` | — | `Option`, Python indexing and slicing, list helpers |
| `Tracks` | — | the engine's `Track`, the (title, author) identity, search results |
| `MusicQueue` | utils/music_queue.py | the per-guild state and its operations |
| `QueueProperties` | utils/music_queue.py | lemmas relating several queue operations |
| `Playback` | cogs/music.py | play command, selection menu, stop, skip, volume, replay, track events |
| `LibraryStore` | utils/library.py | the libraries file and its operations |
| `LibraryCommands` | cogs/library.py | name lookup, paging, removal by number, load and save of the queue |
| `Recommendations` | cogs/recommendations.py | author sampling and the batch builder |
| `Formatters` | utils/formatters.py, cogs/library.py | the two duration formatters and a parser for their output |
| `Validators` | utils/validators.py | the YouTube link check |

Behaviour of the code worth knowing:

- **Skip.** `skip` only stops the player, so under replay mode the
  track-end event that follows replays the same song
  (`Playback.SkipUnderReplayReplays`).
- **Track start.** `on_track_start` only sets the current song. A track
  started by `_play_next` is recorded once there and once more by the start
  event, so its author enters the play history twice
  (`Playback.PlayThenStartRecordsTwice`).
- **Cogs over explicit inputs.** The library and recommendation cogs read
  bot attributes the client never defines (`music_queues`, `play_history`,
  `current_song`). Their logic is therefore modelled over explicit inputs:
  the queue, the current song and the history are parameters.
- **Library load.** `library_load` pops the head of the guild's whole queue.
  That head may be a track queued before the load. If the play request for it
  fails, the track is dropped. On success the current song is set directly,
  without a history entry.
- **Guild teardown.** `on_guild_remove` refers to a `locks` attribute the
  queue manager does not have. Guild teardown is modelled by
  `_cleanup_guild` (`MusicQueue.CleanupGuild`).

## Model

| member | source | states |
|---|---|---|
| MusicQueue.Create | utils/music_queue.py:25-40 | a new manager starts with every per-guild map empty, so every guild reads as new: empty queue, no song, empty histories, no text channel, both switches off; the bound is the one given (the source's default of 100 is not modelled, see Left out) |
| MusicQueue.WithLock | utils/locks.py:22-53 | running under the guild lock creates the guild's lock entry and changes nothing else |
| MusicQueue.SetQueue | utils/music_queue.py:53-68 | replacing a guild's queue touches no other guild and no other map |
| MusicQueue.AddTrack | utils/music_queue.py:53-68 | a single track goes to the back of the queue, or to the front when `to_front`; other guilds keep their queues |
| MusicQueue.AppendAll | utils/music_queue.py:98-100 | appending the tracks one by one yields the queue followed by the tracks in their order |
| MusicQueue.PrependAll | utils/music_queue.py:93-97 | pushing the reversed tracks to the front one by one yields the tracks in their original order, followed by the queue |
| MusicQueue.AddPlaylist | utils/music_queue.py:81-100 | a playlist keeps its internal order and lands at the tail, or at the head when `to_front` |
| MusicQueue.GetNextTrack | utils/music_queue.py:114-126 | a missing or empty queue yields None and leaves the state alone; otherwise the old head is returned and the queue loses exactly that element |
| MusicQueue.PeekQueue | utils/music_queue.py:141-156 | peeking follows Python indexing: an in-range index or a negative index within the length gives that track, an index past the end gives None, and an index below `-len` raises |
| MusicQueue.ClearQueue | utils/music_queue.py:167-175 | the guild's queue becomes empty, and a guild without a queue gets no new entry |
| MusicQueue.RemoveTrack | utils/music_queue.py:190-208 | an empty queue or an index past the end removes nothing; a valid (possibly negative) index removes exactly that element, the rest keep their order, and the multiset of tracks loses only that one |
| MusicQueue.MoveTrack | utils/music_queue.py:224-252 | succeeds exactly when both indices are in range; the moved track ends at the new index, the others keep their relative order, and the queue is a permutation of the old one; on failure nothing changes |
| MusicQueue.ShuffleQueue | utils/music_queue.py:266-282 | a queue of fewer than two tracks is left unchanged and reported as not shuffled; otherwise the result is a permutation of the queue |
| MusicQueue.GetQueueItems | utils/music_queue.py:296-308 | the snapshot is empty exactly when a pop would yield nothing; otherwise its head is what the pop returns and its tail is the queue the pop leaves |
| MusicQueue.GetQueueLength | utils/music_queue.py:322-334 | the length is the snapshot's length: zero exactly when a pop yields nothing, and one more than the queue a pop leaves |
| MusicQueue.GetTotalDuration | utils/music_queue.py:348-366 | the loop's total is the sum of the queued tracks' lengths |
| MusicQueue.FindTrackIndex | utils/music_queue.py:381-399 | the first position whose track satisfies the predicate, or -1 exactly when none does |
| MusicQueue.TrimAsWrittenUnboundedAtZero | utils/music_queue.py:418-420 | as written, trimming with a bound of 0 keeps the newly appended entry, so the history outgrows its bound |
| MusicQueue.TrimAsWrittenAgreesWhenPositive | utils/music_queue.py:439-441 | for every positive bound the written trim keeps exactly the newest entries |
| MusicQueue.RecordKeepsNewest | utils/music_queue.py:434-441 | an append-then-trim keeps exactly the newest `min(bound, length+1)` entries, with the new entry last |
| MusicQueue.SetCurrentSong | utils/music_queue.py:401-422 | the track becomes current; its author joins the bounded play history only when non-empty; the queue, the replay flag and the recommendation history are untouched |
| MusicQueue.AddToPlayHistory | utils/music_queue.py:424-441 | the author is appended unconditionally and the oldest entries are evicted beyond the bound; nothing else changes |
| MusicQueue.PlayHistoryAsWrittenWhenPositive | utils/music_queue.py:401-441 | for every positive bound, starting a song with a named author and appending to the history leave the history exactly as the source's append-then-slice does |
| MusicQueue.GetPlayHistory | utils/music_queue.py:443-461 | no limit or limit 0 returns the whole history; a positive limit returns the newest `min(limit, length)` entries; a negative limit drops that many from the front |
| MusicQueue.ClearCurrentSong | utils/music_queue.py:463-471 | afterwards the guild has no current song and nothing else changed |
| MusicQueue.GetCurrentSong | utils/music_queue.py:473-483 | the current song is none exactly for a guild without one, and otherwise the stored track |
| MusicQueue.GetRecommendations | utils/music_queue.py:498-520 | empty or missing history gives none; otherwise exactly `min(limit, number of distinct authors)` distinct authors, all from the history, and all of them when the limit covers them |
| MusicQueue.IsTrackInHistory | utils/music_queue.py:522-538 | a track counts as recommended exactly when its (title, author) is in the guild's recommendation history; a guild without a history has none |
| MusicQueue.AddToRecommendationHistory | utils/music_queue.py:540-583 | the track's (title, author) joins a ring of the bound's capacity, so it is then in the history exactly when the bound is positive; the bound keeps holding |
| MusicQueue.ToggleRecommendations | utils/music_queue.py:585-609 | the flag, off by default, flips and the new value is returned |
| MusicQueue.GetRecommendationStatus | utils/music_queue.py:599-609 | the switch reads off for a guild that never set it, and the stored value otherwise |
| MusicQueue.SetTextChannel | utils/music_queue.py:611-619 | the channel reads back through `GetTextChannel`, and no other map or guild changes |
| MusicQueue.GetTextChannel | utils/music_queue.py:621-630 | no channel exactly for a guild that never set one, and the stored one otherwise |
| MusicQueue.SetReplayStatus | utils/music_queue.py:632-644 | the replay flag reads back as set, and no other guild or map changes |
| MusicQueue.GetReplayStatus | utils/music_queue.py:646-659 | the switch reads off for a guild that never set it, and the stored value otherwise |
| MusicQueue.ToggleReplay | utils/music_queue.py:646-673 | the replay flag, off by default, flips and the new value is returned |
| MusicQueue.CleanupGuild | utils/music_queue.py:684-715 | every per-guild entry and the lock of the guild are gone, other guilds are untouched, and the history bound still holds |
| QueueProperties.DrainYieldsQueue | utils/music_queue.py:114-126 | popping until empty returns the queued tracks in queue order |
| QueueProperties.PushThenPop | utils/music_queue.py:53-126 | for every queue and either end: a track pushed to the front, or onto an empty queue, is popped straight back and the queue is as before; pushed to the back of a non-empty queue, the old head is popped and the track waits behind the rest |
| QueueProperties.PlaylistComesOutInOrder | utils/music_queue.py:81-126 | a playlist added to an empty queue pops out in its original order, whichever end it was added at |
| QueueProperties.SnapshotAgreesWithPeek | utils/music_queue.py:141-156 | the queue snapshot and peek agree at every in-range index |
| QueueProperties.SumLengthsAppend | utils/music_queue.py:348-366 | the total duration of a concatenation is the sum of the totals |
| QueueProperties.SumLengthsRemoveAt | utils/music_queue.py:190-208 | removing a track lowers the total duration by exactly its length |
| QueueProperties.DurationPermutationInvariant | utils/music_queue.py:266-282 | a shuffle does not change the queue's total duration |
| QueueProperties.MoveKeepsDuration | utils/music_queue.py:224-252 | a move does not change the queue's total duration |
| QueueProperties.RecordAllKeepsNewest | utils/music_queue.py:424-441 | after any run of appends the history is the newest `bound` entries of everything appended, in order |
| QueueProperties.OverflowEvictsOldest | utils/music_queue.py:424-441 | appending to a full history of positive bound drops exactly its oldest entry, keeps the others in order and puts the new author last |
| QueueProperties.OverflowDropsFirstFive | utils/music_queue.py:424-441 | example: from an empty history, `bound + 5` appends keep all but the first five, in order |
| QueueProperties.HistoryFollowsPlayOrder | utils/music_queue.py:401-422 | starting any sequence of songs from a state within the bound leaves the newest `bound` entries of the old history followed by the songs' non-empty authors in play order |
| QueueProperties.HistoryKeepsAllBelowBound | utils/music_queue.py:401-422 | while the old history and the named authors fit in the bound, starting the songs appends exactly their non-empty authors, in play order |
| QueueProperties.ToggleTwiceRestores | utils/music_queue.py:585-673 | toggling a flag twice restores its value |
| QueueProperties.CleanupResetsGuild | utils/music_queue.py:684-715 | after cleanup the guild reads as new: empty queue, no song, empty histories, both flags off |
| Playback.FirstPlayable | cogs/music.py:540-563 | reference for auto-advance: the first queued track the engine accepts, and none before it |
| Playback.PlayNext | cogs/music.py:533-563 | a disconnected player only loses its queue: no command, and the current song, play history and every other map stay; in no case are the recommendation switch and history touched; otherwise the tracks before the first accepted one are tried and dropped, the accepted one is played, becomes current and enters the history; with none accepted the queue is exhausted and the player disconnects |
| Playback.AdvancedSkipsRejected | cogs/music.py:541-555 | a rejected head adds one failed play in front of what advancing over the rest does |
| Playback.PlayNextAttemptsBounded | cogs/music.py:540-563 | auto-advance sends at most one command more than the queue is long, and its i-th play request is for the i-th queued track |
| Playback.OnTrackEnd | cogs/music.py:495-531 | with replay on, a current song and a non-empty re-search, the first hit is played and made current, its author recorded as any song start records it, without touching the queue; a raised or empty re-search, or a failed replay, clears the current song and advances |
| Playback.Skip | cogs/music.py:220-246 | skip sends a stop exactly when the engine is playing and changes no queue state; the reply is not-playing without a player, nothing-playing when the engine is idle, the current song's title and replay flag when there is one, and a raise when the queue manager has none |
| Playback.Stop | cogs/music.py:163-187 | on a connected player the queue is emptied, the current song cleared, replay switched off, and the player stopped and disconnected; otherwise nothing happens |
| Playback.Volume | cogs/music.py:362-372 | the volume is set exactly when a player exists and the level is in 0..1000 |
| Playback.ReplayCommand | cogs/music.py:393-429 | while the engine plays, the replay flag flips and its new value is reported; otherwise nothing changes |
| Playback.StartIfIdle | cogs/music.py:92-94 | playback is started exactly when the guild has no current song |
| Playback.AddResults | cogs/music.py:65-160 | a raised or empty fetch adds nothing; a playlist, a link's first result or a sole result is queued and playback starts if idle; several search results are offered as a menu of the first ten |
| Playback.HandlePlay | cogs/music.py:39-79 | a user outside voice or in another channel is refused with no change; a failed connect queues nothing; otherwise the text channel is remembered and the query (a link as is, anything else as a YouTube search) is fetched and its results handled exactly as `AddResults` handles them |
| Playback.PlayOnBusyGuildOnlyQueues | cogs/music.py:39-110 | on a guild that is already playing, a found track or playlist only joins the queue at the requested end: no engine command, same current song |
| Playback.SelectTrack | cogs/music.py:125-143 | the chosen option is queued and playback starts only when idle |
| Playback.SelectionTimeout | cogs/music.py:145-154 | a connected idle player with an empty queue is disconnected, and nothing else happens |
| Playback.SkipUnderReplayReplays | cogs/music.py:228-236 | under replay, a skip is followed by a replay of the same song and the queue stays as it was |
| Playback.StopThenTrackEndIsQuiet | cogs/music.py:171-178 | after stop, the stopped track's end event plays nothing and leaves the queue empty |
| Playback.PlayThenStartRecordsTwice | cogs/music.py:474-492 | a track started by auto-advance and then reported by the start event puts its author into the history twice |
| Playback.PlayOnIdleGuildStartsTrack | cogs/music.py:97-110 | a single found track on an idle guild with an empty queue is played at once and becomes current |
| LibraryStore.Load | utils/library.py:23-59 | a missing, corrupt or unreadable file loads as the empty mapping, though an unreadable file still holds its libraries; only a corrupt file with a successful recovery is rewritten, as empty |
| LibraryStore.Save | utils/library.py:61-91 | a save reports success exactly when the write succeeds, stores the mapping on success, and leaves the file as it was on failure |
| LibraryStore.UriTaken | utils/library.py:154-159 | the duplicate scan finds a track exactly when some stored track has that URI |
| LibraryStore.CreateLibrary | utils/library.py:93-113 | creation succeeds exactly for a new name with a working write, adding an empty library and nothing else; otherwise the stored mapping is unchanged |
| LibraryStore.DeleteLibrary | utils/library.py:115-135 | deletion succeeds exactly for an existing name with a working write, removing only that library |
| LibraryStore.AddTrack | utils/library.py:137-165 | refused for a missing library or a track whose non-empty URI is already stored; otherwise the track is appended at the end |
| LibraryStore.RemoveTrack | utils/library.py:167-192 | succeeds exactly for an existing library and an index in 0..length-1, removing just that track |
| LibraryStore.GetLibrary | utils/library.py:194-210 | an absent name gives None, a present one its tracks |
| LibraryStore.ListLibraries | utils/library.py:212-223 | every stored name maps to its number of tracks, and no other name appears |
| LibraryStore.SaveThenLoad | utils/library.py:23-91 | what a successful save wrote is what the next load returns |
| LibraryStore.OperationsKeepUrisDistinct | utils/library.py:93-192 | no operation makes two tracks of one library share a non-empty URI |
| LibraryStore.AppendKeepsUriDistinct | utils/library.py:154-165 | appending a track that passed the duplicate check keeps non-empty URIs distinct |
| LibraryStore.RemoveKeepsUriDistinct | utils/library.py:185-192 | removing a track keeps non-empty URIs distinct |
| LibraryStore.SecondAddIsRefused | utils/library.py:154-159 | once a track with a non-empty URI is stored, a second add with that URI is refused |
| LibraryStore.AddThenRemoveLastRestores | utils/library.py:137-192 | adding a track and then removing the last position restores the stored mapping |
| LibraryStore.CreateThenDeleteRestores | utils/library.py:93-135 | creating a library and deleting it again restores the stored mapping |
| LibraryStore.UnreadableStoreIsOverwritten | utils/library.py:56-113 | creating a library over a file that holds libraries but cannot be read stores the new library alone: every library the file held is lost |
| LibraryStore.CorruptStoreListsNothing | utils/library.py:36-56 | a file that does not decode lists no libraries, and after a successful recovery holds an empty mapping |
| LibraryCommands.FirstNormalMatch | cogs/library.py:724-729 | the first stored name with the same normal form as the input, and none before it |
| LibraryCommands.FindLibraryName | cogs/library.py:718-731 | an exact stored name is returned as is; otherwise the first stored name with the same normal form; none exactly when no normal form matches |
| LibraryCommands.FindLibraryNameIdempotent | cogs/library.py:718-731 | a resolved name resolves to itself |
| LibraryCommands.ViewWindow | cogs/library.py:369-393 | the page count is the ceiling of n/10, the page is clamped into range, and the shown positions run from `(page-1)*10` to `min(page*10, n)` |
| LibraryCommands.PagesPartitionTracks | cogs/library.py:369-393 | every track is shown on exactly one page |
| LibraryCommands.LibraryView | cogs/library.py:349-399 | an empty library is reported as such; a page shows 1 to 10 entries, and each number maps back to the track shown next to it |
| LibraryCommands.TrackIndex | cogs/library.py:587-592 | a 1-based number names a position exactly when it lies in 1..n, and that position is the number minus one |
| LibraryCommands.LibraryRemove | cogs/library.py:566-609 | an unknown name, an out-of-range number or a failed write change nothing; a valid number removes that track and reports it |
| LibraryCommands.ShownNumberRemovesShownTrack | cogs/library.py:584-601 | removing the number shown next to a track removes that very track |
| LibraryCommands.FirstTrack | cogs/library.py:475-480 | a lookup yields a track exactly when it returns a non-empty list or playlist |
| LibraryCommands.TitleQuery | cogs/library.py:508-517 | the text search is the title followed by a space and the author when there is an author, the title alone without one, and there is none without a title |
| LibraryCommands.Attempts | cogs/library.py:465-529 | reference order: identifier, then link, then text search, each only when its field is set |
| LibraryCommands.FirstSuccess | cogs/library.py:465-540 | the result of the first lookup that yields a track, or none when all fail |
| LibraryCommands.ResolveIsFirstSuccess | cogs/library.py:465-535 | the load command's fallback chain returns the first success in the reference order |
| LibraryCommands.Found | cogs/library.py:465-540 | at most one track per stored entry |
| LibraryCommands.LoadTracks | cogs/library.py:453-550 | the entries are tried in stored order or in a permutation of it; added plus skipped equals the number of stored tracks; the found tracks are appended in order; playback starts only when the player is idle and something was added |
| LibraryCommands.ResolveAll | cogs/library.py:465-540 | each entry appends at most one track, in order, and every entry counts as added or skipped |
| LibraryCommands.Offered | cogs/library.py:285-336 | the current song is offered first, then the queue in order |
| LibraryCommands.Accepted | utils/library.py:154-165 | offering tracks one by one only ever appends to the library |
| LibraryCommands.AcceptedKeepsUriDistinct | utils/library.py:154-165 | repeated adds keep non-empty URIs distinct |
| LibraryCommands.AddTrackAccepts | cogs/library.py:306-336 | one add leaves the library as the reference predicts and succeeds exactly when the library grew |
| LibraryCommands.AddAll | cogs/library.py:306-336 | every offered track counts as added or skipped, and the library ends as the reference predicts |
| LibraryCommands.SaveQueue | cogs/library.py:253-346 | nothing playing or queued is refused; an unknown name creates the library first; the current song and the queue are offered in order, and added plus skipped equals the number offered |
| Recommendations.FirstFresh | cogs/recommendations.py:53-57 | the first result whose (title, author) is not yet in the batch, and none before it |
| Recommendations.AddFor | cogs/recommendations.py:44-59 | one author adds at most one track, new to the batch: a raised search or a search with no fresh result adds nothing, otherwise the first fresh result is appended |
| Recommendations.AddForKeepsIdsDistinct | cogs/recommendations.py:53-57 | one author's turn keeps the batch free of repeated (title, author) pairs |
| Recommendations.BuildFrom | cogs/recommendations.py:43-59 | the batch never exceeds the count, holds at most one track per author, repeats no (title, author), and every track comes from a picked author's search |
| Recommendations.BuildFromComplete | cogs/recommendations.py:43-59 | a batch that stays below the count skipped nobody: every picked author's search raised, added a track, or had only results already in the batch |
| Recommendations.RaisingAuthorIsSkipped | cogs/recommendations.py:49-59 | an author whose search raises leaves the batch as if they had not been picked |
| Recommendations.Recommend | cogs/recommendations.py:14-64 | the command's refusals (no history, not in voice, connect failure, negative count) happen exactly in their cases; otherwise `min(count, number of distinct authors)` distinct authors from the history are queried and a non-empty batch of at most `count` distinct tracks is offered |
| Recommendations.LargeCountPicksEveryAuthor | cogs/recommendations.py:36-41 | a count covering all distinct authors queries every one of them |
| Formatters.SplitClock | utils/formatters.py:11-13 | hours, minutes and seconds recombine to the total, and minutes and seconds are below 60 |
| Formatters.ClockUnique | utils/formatters.py:12-13 | the split into hours, minutes and seconds is unique |
| Formatters.TruncDiv1000 | utils/formatters.py:11 | `int(ms / 1000)` truncates toward zero: floor division for non-negative ms, and for negative ms a quotient whose remainder lies in -999..0 |
| Formatters.Pad2 | utils/formatters.py:16-18 | a two-digit field is at least two digits long and exactly two below 100 |
| Formatters.Pad2RoundTrip | utils/formatters.py:16-18 | a zero-padded field reads back as the same number |
| Formatters.DecimalRoundTrip | utils/formatters.py:16-18 | an unpadded field reads back as the same number |
| Formatters.FormatDurationRoundTrip | utils/formatters.py:1-18 | for non-negative ms the rendered `H:MM:SS` or `M:SS` text reads back as the whole seconds of ms |
| Formatters.EmbedLongRoundTrip | utils/formatters.py:15-16 | with at least one hour, the text is unpadded hours, two-digit minutes and two-digit seconds, and reads back to the same time |
| Formatters.EmbedShortRoundTrip | utils/formatters.py:17-18 | under an hour, the text is unpadded minutes and two-digit seconds, and reads back to the same time |
| Formatters.NegativeDurationShowsUnderAnHour | utils/formatters.py:11-18 | example: -1500 ms truncates to -1 s and is rendered `59:59` |
| Formatters.NegativeDurationsUseShortForm | utils/formatters.py:11-18 | every negative duration is rendered in the short form: from -1000 ms down the hour count is negative, and above -1000 ms it truncates to `0:00` |
| Formatters.LibraryFormatDurationRoundTrip | cogs/library.py:733-742 | the library listing's all-padded text reads back as `ms // 1000` seconds |
| Formatters.LibraryLongRoundTrip | cogs/library.py:739-740 | with at least one hour, all three fields are zero-padded and read back to the same time |
| Formatters.LibraryShortRoundTrip | cogs/library.py:741-742 | under an hour, minutes and seconds are zero-padded and read back to the same time |
| Validators.PrefixFixesScheme | utils/validators.py:15-16 | a link accepted through one of the eight prefixes has that prefix's scheme |
| Validators.NoSchemeNoPrefix | utils/validators.py:15-16 | a string that starts with neither `http://` nor `https://` matches no accepted prefix |
| Validators.YoutubeUrlIffPrefix | utils/validators.py:3-18 | a string is accepted exactly when it starts with one of the eight literal prefixes (scheme, optional `www.`, `youtube.com/watch?v=` or `youtu.be/`) followed by an id character |
| Validators.AcceptsShortLink | utils/validators.py:16 | a short link with an id is accepted |
| Validators.RejectsMissingId | utils/validators.py:15 | a watch link without an id is rejected |
| Validators.RejectsSearchPhrase | utils/validators.py:15-18 | plain search text is not a link |

## Left out

- The per-guild locks (utils/locks.py). Each locked operation is a plain sequential call. Only the lock registry is kept, as a set of guild ids, because guild cleanup deletes from it.
- All Discord user interface: embeds, reply texts, select-menu labels and their truncation, deferral and follow-up messages. The menus' choices and the search timeout are kept (`Playback.SelectTrack`, `Playback.SelectionTimeout`).
- The voice engine. Connecting, fetching, playing, stopping, disconnecting and setting the volume are oracle inputs or emitted `Command`s. A track's engine-side fields other than title, author, length, URI, identifier, stream flag and artwork URL are not modelled.
- File I/O in utils/library.py: JSON encoding, the backup copy, the temporary file and the rename. Only their outcome is kept: a load may yield the empty mapping, and a save may fail and leave the file alone. `fix_corrupted_library` (utils/library.py:225-255) re-encodes file bytes and is not modelled.
- LibraryStore.TrackData: a missing key and a JSON null both read as `None`. The source treats them the same in every place the model covers.
- Unicode NFC normalisation is the abstract parameter `normalize`. The regular expression class `\w` is modelled as ASCII letters, digits and `_`.
- Formatters.TruncDiv1000: `int(ms / 1000)` goes through a float in the source. The model uses exact truncating division, and the two can differ only when the duration exceeds 2^40 seconds, where the float quotient loses its fractional digits.
- The progress bar of the now-playing embed (utils/formatters.py:20-71) uses float division and is display only.
- MusicQueue.SetCurrentSong: at `max_history_size == 0` the model keeps the history empty, as the intended bound says, while the source keeps every author (see Findings). For every positive bound the two agree (`MusicQueue.PlayHistoryAsWrittenWhenPositive`).
- MusicQueue.AddToPlayHistory: the same divergence at `max_history_size == 0`; for positive bounds the model is the source's trim.
- QueueProperties.RecordAllKeepsNewest: proved for the corrected trim. At `max_history_size == 0` the source keeps every entry instead; for positive bounds the two trims agree (`MusicQueue.TrimAsWrittenAgreesWhenPositive`).
- QueueProperties.OverflowDropsFirstFive: proved for the corrected trim. At `max_history_size == 0` the source keeps all five extra entries instead; for positive bounds the two trims agree (`MusicQueue.TrimAsWrittenAgreesWhenPositive`).
- QueueProperties.HistoryFollowsPlayOrder: proved for the corrected trim. At `max_history_size == 0` the source keeps every entry instead; for positive bounds the two trims agree (`MusicQueue.TrimAsWrittenAgreesWhenPositive`).
- LibraryStore.StoreFile: an unreadable file is any read error other than a decoding error (utils/library.py:56-59). The model does not say why it could not be read. Such a file loads as empty and is not backed up, so the next successful save overwrites it (`LibraryStore.UnreadableStoreIsOverwritten`).
- Formatters.NegativeDurationShowsUnderAnHour: one worked example; the statement for every negative duration is `Formatters.NegativeDurationsUseShortForm`.
- MusicQueue.Create: the source's constructor defaults `max_history_size` to 100. Dafny functions have no default arguments, so the bound is always passed explicitly.
- MusicQueue.QueueState: `max_history_size` is a natural number. A negative size makes the source's ring buffer raise, and that case is not modelled.
- Playback.Engine: whether a play request succeeds is a function of the track, so two equal tracks in the queue are both accepted or both rejected. The source's engine may accept one and reject the other. No contract depends on the difference.
- Playback.Skip: when the engine is playing but the queue manager has no current song, the source's reply raises after stopping. The model reports this as `SkipRaised` and does not model the exception itself.
- The library cog's `library_create`, `library_list`, `library_delete`, `library_add` and `library_remove_select` commands. They wrap the store operations that are modelled (`LibraryStore.*`) with user-interface code. `library_add`'s per-track adds are the same `LibraryStore.AddTrack`.
- LibraryCommands.LoadTracks: the guards of `library_load` before the loop (unknown name, empty library, user not in voice, failed connect) and the text-channel bookkeeping are not modelled. The method starts from a found, non-empty library and a player.
- LibraryCommands.SaveQueue: one `Io` value decides every file access of one command. A store whose recovery or write succeeds for some calls of one command and fails for others is not modelled.
- Recommendations.Recommend: `Counter.most_common()` orders authors by frequency. The model lists distinct authors in first-seen order. Since `random.sample` picks any subset, only the set of candidates matters. Also left out: the menu callback that queues a chosen recommendation (cogs/recommendations.py:80-97), and the disconnect after an empty batch (cogs/recommendations.py:61-63).
- bot/events.py, main.py, bot/client.py, config.py and the chat cog: start-up, configuration and unrelated features.

## Findings

| source | as written | input that shows it | evidently intended | confidence | as-written member | corrected member |
|---|---|---|---|---|---|---|
| utils/music_queue.py:418-420, 439-441 | the play history is trimmed with `history[-max_history_size:]` once it is longer than the bound | `max_history_size == 0`: after one append the history holds 1 entry, since `h[-0:]` is the whole list | the history never holds more than `max_history_size` entries, as the recommendation history's `deque(maxlen=...)` does | not executed | MusicQueue.TrimAsWritten (shown by MusicQueue.TrimAsWrittenUnboundedAtZero) | MusicQueue.Record (proved by MusicQueue.RecordKeepsNewest) |

=== FILE: common.dfy ===
/** Small value types and sequence helpers shared by every module of the model:
    an Option type, Python-style indexing and slicing, and the sequence
    surgery (remove-at, insert-at, distinct, sampling) the bot performs on lists. */
module Common {

  datatype Option<+T> = None | Some(value: T) {
    function GetOr(default: T): T {
      match this
      case Some(v) => v
      case None => default
    }
  }

  /** Result of looking up a Python list position: the element, a guarded
      "nothing there" (the caller's `return None`), or an IndexError raised by
      Python's own indexing. */
  datatype Fetched<+T> = Hit(value: T) | Miss | IndexError

  function Min(a: int, b: int): int { if a <= b then a else b }
  function Max(a: int, b: int): int { if a >= b then a else b }

  /** Python's normalisation of a list index `i` for a list of length `n`:
      negative indices count from the end; anything else out of range is None. */
  function PyIndex(n: nat, i: int): (r: Option<nat>)
    ensures r.Some? <==> 0 <= n + i && i < n
    ensures r.Some? ==> r.value < n && (r.value == i || r.value == n + i)
  {
    if 0 <= i < n then Some(i)
    else if 0 <= n + i && i < 0 then Some(n + i)
    else None
  }

  /** Python's slice `s[-k:]`: for k > 0 the last k elements (all of them when
      k exceeds the length); for k == 0 the whole list, since `-0` is `0`; for
      k < 0 the list without its first `-k` elements. */
  function PyTail<T>(s: seq<T>, k: int): seq<T>
  {
    if k == 0 then s
    else if k > 0 then s[Max(0, |s| - k)..]
    else s[Min(-k, |s|)..]
  }

  /** The last `n` elements of `s` (all of `s` if it is shorter). */
  function LastN<T>(s: seq<T>, n: nat): (r: seq<T>)
    ensures |r| == Min(n, |s|)
    ensures r == s[|s| - |r|..]
  {
    if |s| <= n then s else s[|s| - n..]
  }

  function RemoveAt<T>(s: seq<T>, i: nat): (r: seq<T>)
    requires i < |s|
    ensures |r| == |s| - 1
    ensures forall j :: 0 <= j < i ==> r[j] == s[j]
    ensures forall j :: i <= j < |r| ==> r[j] == s[j + 1]
  {
    s[..i] + s[i + 1..]
  }

  function InsertAt<T>(s: seq<T>, i: nat, x: T): (r: seq<T>)
    requires i <= |s|
    ensures |r| == |s| + 1
    ensures r[i] == x
    ensures forall j :: 0 <= j < i ==> r[j] == s[j]
    ensures forall j :: i < j < |r| ==> r[j] == s[j - 1]
  {
    s[..i] + [x] + s[i..]
  }

  lemma RemoveAtMultiset<T>(s: seq<T>, i: nat)
    requires i < |s|
    ensures multiset(RemoveAt(s, i)) + multiset{s[i]} == multiset(s)
  {
    assert s == s[..i] + [s[i]] + s[i + 1..];
  }

  lemma InsertAtMultiset<T>(s: seq<T>, i: nat, x: T)
    requires i <= |s|
    ensures multiset(InsertAt(s, i, x)) == multiset(s) + multiset{x}
  {
    assert s == s[..i] + s[i..];
  }

  lemma RemoveInsertAt<T>(s: seq<T>, i: nat, x: T)
    requires i <= |s|
    ensures RemoveAt(InsertAt(s, i, x), i) == s
  {
    assert InsertAt(s, i, x)[..i] == s[..i];
    assert InsertAt(s, i, x)[i + 1..] == s[i..];
    assert s[..i] + s[i..] == s;
  }

  predicate NoDups<T(==)>(s: seq<T>)
  {
    forall i, j :: 0 <= i < j < |s| ==> s[i] != s[j]
  }

  function Elems<T>(s: seq<T>): set<T>
  {
    set x | x in s
  }

  /** The distinct elements of `s` in order of first appearance (the key
      list of a Python Counter built from `s`). */
  function Distinct<T(==)>(s: seq<T>): (r: seq<T>)
    ensures NoDups(r)
    ensures Elems(r) == Elems(s)
    ensures |r| <= |s|
  {
    DistinctFrom(s, [])
  }

  function DistinctFrom<T(==)>(s: seq<T>, seen: seq<T>): (r: seq<T>)
    requires NoDups(seen)
    ensures NoDups(r)
    ensures Elems(r) == Elems(s) + Elems(seen)
    ensures |r| <= |s| + |seen|
    ensures |seen| <= |r| && r[..|seen|] == seen
    decreases |s|
  {
    if s == [] then seen
    else if s[0] in seen then DistinctFrom(s[1..], seen)
    else DistinctFrom(s[1..], seen + [s[0]])
  }

  /** What `random.sample(population, k)` may return: k distinct picks from
      a population of distinct values. */
  predicate IsSample<T(==)>(r: seq<T>, population: seq<T>, k: nat)
  {
    |r| == k && NoDups(r) && forall x :: x in r ==> x in population
  }

  lemma NoDupsCard<T>(s: seq<T>)
    requires NoDups(s)
    ensures |Elems(s)| == |s|
  {
    if s != [] {
      var t := s[1..];
      assert NoDups(t);
      NoDupsCard(t);
      assert Elems(s) == Elems(t) + {s[0]};
      forall j | 0 <= j < |t|
        ensures t[j] != s[0]
      {
        assert t[j] == s[j + 1];
      }
      assert s[0] !in Elems(t);
    }
  }

  /** A sample as large as a duplicate-free population is the whole population. */
  lemma {:induction false} FullSampleIsPopulation<T>(r: seq<T>, population: seq<T>)
    requires NoDups(population)
    requires IsSample(r, population, |population|)
    ensures Elems(r) == Elems(population)
  {
    NoDupsCard(r);
    NoDupsCard(population);
    var a, b := Elems(r), Elems(population);
    assert a <= b;
    assert |b - a| == |b| - |a * b|;
    assert a * b == a;
    assert |b - a| == 0;
    assert b - a == {};
    assert b <= a;
  }

  /** The first `k` elements of a duplicate-free sequence form a sample of it,
      so `random.sample` always has a result to return. */
  lemma PrefixIsSample<T>(population: seq<T>, k: nat)
    requires NoDups(population)
    requires k <= |population|
    ensures IsSample(population[..k], population, k)
  {
    assert forall x :: x in population[..k] ==> x in population;
  }
}

=== FILE: formatters.dfy ===
/** Rendering of track durations given in milliseconds as clock strings: the
    embed formatter (`M:SS` / `H:MM:SS`, seconds truncated toward zero) and
    the library listing formatter (`MM:SS` / `HH:MM:SS`, seconds floored).
    A small clock parser is the inverse both are checked against. */
module Formatters {
  import opened Common

  // ------------------------------------------------------------- digits

  function DigitChar(d: nat): char
    requires d < 10
  {
    "0123456789"[d]
  }

  predicate IsDigit(c: char)
  {
    '0' <= c <= '9'
  }

  predicate AllDigits(s: string)
  {
    forall c :: c in s ==> IsDigit(c)
  }

  function DigitValue(c: char): nat
    requires IsDigit(c)
  {
    (c as int - '0' as int) as nat
  }

  /** Decimal rendering of a natural number, without leading zeros. */
  function Decimal(n: nat): (r: string)
    ensures r != [] && AllDigits(r)
    ensures n < 10 <==> |r| == 1
    decreases n
  {
    if n < 10 then [DigitChar(n)] else Decimal(n / 10) + [DigitChar(n % 10)]
  }

  /** Python's `{:02d}` for a non-negative value: at least two digits. */
  function Pad2(n: nat): (r: string)
    ensures AllDigits(r) && |r| >= 2
    ensures n < 100 ==> |r| == 2
  {
    if n < 10 then "0" + Decimal(n) else Decimal(n)
  }

  /** Value of a string of decimal digits (leading zeros allowed). */
  function ParseNat(s: string): nat
    requires AllDigits(s)
    decreases |s|
  {
    if s == [] then 0 else ParseNat(s[..|s| - 1]) * 10 + DigitValue(s[|s| - 1])
  }

  lemma DigitRoundTrip(d: nat)
    requires d < 10
    ensures IsDigit(DigitChar(d)) && DigitValue(DigitChar(d)) == d
  {
  }

  /** Parsing what `Decimal` printed gives the number back. */
  lemma {:induction false} DecimalRoundTrip(n: nat)
    ensures ParseNat(Decimal(n)) == n
    decreases n
  {
    DigitRoundTrip(n % 10);
    if n >= 10 {
      var r := Decimal(n);
      DecimalRoundTrip(n / 10);
      assert r[..|r| - 1] == Decimal(n / 10);
    } else {
      assert Decimal(n)[..0] == [];
    }
  }

  lemma TwoDigitDecimal(n: nat)
    requires n < 100
    ensures |Decimal(n)| <= 2
  {
    if n >= 10 {
      assert Decimal(n) == Decimal(n / 10) + [DigitChar(n % 10)];
    }
  }

  lemma Pad2RoundTrip(n: nat)
    ensures ParseNat(Pad2(n)) == n
  {
    DecimalRoundTrip(n);
    if n < 10 {
      var r := Pad2(n);
      assert r[..1] == "0";
      assert r[..1][..0] == [];
    }
  }

  // -------------------------------------------------------------- clock

  /** Whole hours, minutes and seconds of a signed second count. */
  datatype Clock = Clock(hours: int, minutes: nat, seconds: nat)

  /** Python's two `divmod(_, 60)` steps: floor division, so minutes and
      seconds are always in 0..59 and the sign goes to the hours. */
  function SplitClock(total: int): (c: Clock)
    ensures c.hours * 3600 + c.minutes * 60 + c.seconds == total
    ensures c.minutes < 60 && c.seconds < 60
    ensures c.hours >= 0 <==> total >= 0
  {
    var m := total / 60;
    Clock(m / 60, m % 60, total % 60)
  }

  /** Any two clocks with in-range minutes and seconds that add up to the same
      total are the same clock. */
  lemma ClockUnique(c: Clock, d: Clock)
    requires c.minutes < 60 && c.seconds < 60 && d.minutes < 60 && d.seconds < 60
    requires c.hours * 3600 + c.minutes * 60 + c.seconds == d.hours * 3600 + d.minutes * 60 + d.seconds
    ensures c == d
  {
    var x := c.hours * 60 + c.minutes;
    var y := d.hours * 60 + d.minutes;
    assert x * 60 + c.seconds == y * 60 + d.seconds;
    assert c.seconds == d.seconds && x == y;
    assert c.minutes == d.minutes;
  }

  /** `int(ms / 1000)`: true division then truncation toward zero. */
  function TruncDiv1000(ms: int): (r: int)
    ensures ms >= 0 ==> r == ms / 1000
    ensures ms < 0 ==> -999 <= ms - r * 1000 <= 0
    ensures -999 <= ms - r * 1000 <= 999
    ensures r * ms >= 0
  {
    if ms >= 0 then ms / 1000 else -((-ms) / 1000)
  }

  /** The embed formatter: `H:MM:SS` when there is at least one hour,
      `M:SS` otherwise. */
  function FormatDuration(ms: int): string
  {
    EmbedClock(SplitClock(TruncDiv1000(ms)))
  }

  function EmbedClock(c: Clock): string
  {
    if c.hours > 0 then Decimal(c.hours) + ":" + Pad2(c.minutes) + ":" + Pad2(c.seconds)
    else Decimal(c.minutes) + ":" + Pad2(c.seconds)
  }

  /** The library listing formatter: every field zero-padded, `ms // 1000`. */
  function LibraryFormatDuration(ms: int): string
  {
    LibraryClock(SplitClock(ms / 1000))
  }

  function LibraryClock(c: Clock): string
  {
    if c.hours > 0 then Pad2(c.hours) + ":" + Pad2(c.minutes) + ":" + Pad2(c.seconds)
    else Pad2(c.minutes) + ":" + Pad2(c.seconds)
  }

  // ------------------------------------------------------------- parser

  /** The text fields of `[H:]M:SS`. */
  datatype ClockText = ClockText(hours: Option<string>, minutes: string, seconds: string)

  /** Cut a clock string into fields: the last field is exactly two
      characters after a colon; an hour field is present exactly when a
      second colon sits three places before that one. */
  function ClockFields(s: string): Option<ClockText>
  {
    if |s| < 4 || s[|s| - 3] != ':' then None
    else
      var front := s[..|s| - 3];
      if |front| >= 4 && front[|front| - 3] == ':' then
        Some(ClockText(Some(front[..|front| - 3]), front[|front| - 2..], s[|s| - 2..]))
      else Some(ClockText(None, front, s[|s| - 2..]))
  }

  /** Seconds denoted by a clock string, when every field is a non-empty
      run of digits. */
  function ParseClock(s: string): (r: Option<int>)
    ensures r.Some? ==> r.value >= 0
  {
    match ClockFields(s)
    case None => None
    case Some(ClockText(None, m, sec)) =>
      if m != [] && AllDigits(m) && AllDigits(sec) then Some(ParseNat(m) * 60 + ParseNat(sec)) else None
    case Some(ClockText(Some(h), m, sec)) =>
      if h != [] && AllDigits(h) && AllDigits(m) && AllDigits(sec)
      then Some(ParseNat(h) * 3600 + ParseNat(m) * 60 + ParseNat(sec))
      else None
  }

  lemma ShortFields(m: string, ss: string)
    requires 1 <= |m| <= 2 && |ss| == 2
    ensures ClockFields(m + ":" + ss) == Some(ClockText(None, m, ss))
  {
    var s := m + ":" + ss;
    assert s[|s| - 3] == ':';
    assert s[|s| - 2..] == ss;
    assert s[..|s| - 3] == m;
  }

  lemma LongFields(h: string, mm: string, ss: string)
    requires |h| >= 1 && |mm| == 2 && |ss| == 2
    ensures ClockFields(h + ":" + mm + ":" + ss) == Some(ClockText(Some(h), mm, ss))
  {
    var front := h + ":" + mm;
    var s := front + ":" + ss;
    assert s[|s| - 3] == ':';
    assert s[|s| - 2..] == ss;
    assert s[..|s| - 3] == front;
    assert front[|front| - 3] == ':';
    assert front[|front| - 2..] == mm;
    assert front[..|front| - 3] == h;
  }

  lemma ShortTextRoundTrip(minutes: nat, seconds: nat, m: string, sec: string)
    requires 1 <= |m| <= 2 && AllDigits(m) && ParseNat(m) == minutes
    requires |sec| == 2 && AllDigits(sec) && ParseNat(sec) == seconds
    ensures ParseClock(m + ":" + sec) == Some(minutes * 60 + seconds)
  {
    ShortFields(m, sec);
  }

  lemma LongTextRoundTrip(hours: nat, minutes: nat, seconds: nat, h: string, m: string, sec: string)
    requires h != [] && AllDigits(h) && ParseNat(h) == hours
    requires |m| == 2 && AllDigits(m) && ParseNat(m) == minutes
    requires |sec| == 2 && AllDigits(sec) && ParseNat(sec) == seconds
    ensures ParseClock(h + ":" + m + ":" + sec) == Some(hours * 3600 + minutes * 60 + seconds)
  {
    LongFields(h, m, sec);
  }

  /** For a non-negative duration the embed string reads back as the whole
      seconds it was made from. */
  lemma FormatDurationRoundTrip(ms: int)
    requires ms >= 0
    ensures ParseClock(FormatDuration(ms)) == Some(ms / 1000)
  {
    var c := SplitClock(ms / 1000);
    FormatDurationClock(ms);
    EmbedClockRoundTrip(c);
  }

  lemma FormatDurationClock(ms: int)
    requires ms >= 0
    ensures FormatDuration(ms) == EmbedClock(SplitClock(ms / 1000))
  {
    assert TruncDiv1000(ms) == ms / 1000;
  }

  lemma EmbedClockRoundTrip(c: Clock)
    requires c.hours >= 0 && c.minutes < 60 && c.seconds < 60
    ensures ParseClock(EmbedClock(c)) == Some(c.hours * 3600 + c.minutes * 60 + c.seconds)
  {
    if c.hours > 0 {
      EmbedLongRoundTrip(c);
    } else {
      EmbedShortRoundTrip(c);
    }
  }

  lemma EmbedLongRoundTrip(c: Clock)
    requires c.hours > 0 && c.minutes < 60 && c.seconds < 60
    ensures ParseClock(Decimal(c.hours) + ":" + Pad2(c.minutes) + ":" + Pad2(c.seconds))
            == Some(c.hours * 3600 + c.minutes * 60 + c.seconds)
  {
    DecimalRoundTrip(c.hours);
    Pad2RoundTrip(c.minutes);
    Pad2RoundTrip(c.seconds);
    LongTextRoundTrip(c.hours, c.minutes, c.seconds, Decimal(c.hours), Pad2(c.minutes), Pad2(c.seconds));
  }

  lemma EmbedShortRoundTrip(c: Clock)
    requires c.minutes < 60 && c.seconds < 60
    ensures ParseClock(Decimal(c.minutes) + ":" + Pad2(c.seconds)) == Some(c.minutes * 60 + c.seconds)
  {
    DecimalRoundTrip(c.minutes);
    TwoDigitDecimal(c.minutes);
    Pad2RoundTrip(c.seconds);
    ShortTextRoundTrip(c.minutes, c.seconds, Decimal(c.minutes), Pad2(c.seconds));
  }

  /** For a non-negative duration the library string reads back as its whole seconds. */
  lemma LibraryFormatDurationRoundTrip(ms: int)
    requires ms >= 0
    ensures ParseClock(LibraryFormatDuration(ms)) == Some(ms / 1000)
  {
    var c := SplitClock(ms / 1000);
    LibraryFormatDurationClock(ms);
    LibraryClockRoundTrip(c);
  }

  lemma LibraryFormatDurationClock(ms: int)
    ensures LibraryFormatDuration(ms) == LibraryClock(SplitClock(ms / 1000))
  {
  }

  lemma LibraryClockRoundTrip(c: Clock)
    requires c.hours >= 0 && c.minutes < 60 && c.seconds < 60
    ensures ParseClock(LibraryClock(c)) == Some(c.hours * 3600 + c.minutes * 60 + c.seconds)
  {
    if c.hours > 0 {
      LibraryLongRoundTrip(c);
    } else {
      LibraryShortRoundTrip(c);
    }
  }

  lemma LibraryLongRoundTrip(c: Clock)
    requires c.hours > 0 && c.minutes < 60 && c.seconds < 60
    ensures ParseClock(Pad2(c.hours) + ":" + Pad2(c.minutes) + ":" + Pad2(c.seconds))
            == Some(c.hours * 3600 + c.minutes * 60 + c.seconds)
  {
    Pad2RoundTrip(c.hours);
    Pad2RoundTrip(c.minutes);
    Pad2RoundTrip(c.seconds);
    LongTextRoundTrip(c.hours, c.minutes, c.seconds, Pad2(c.hours), Pad2(c.minutes), Pad2(c.seconds));
  }

  lemma LibraryShortRoundTrip(c: Clock)
    requires c.minutes < 60 && c.seconds < 60
    ensures ParseClock(Pad2(c.minutes) + ":" + Pad2(c.seconds)) == Some(c.minutes * 60 + c.seconds)
  {
    Pad2RoundTrip(c.minutes);
    Pad2RoundTrip(c.seconds);
    ShortTextRoundTrip(c.minutes, c.seconds, Pad2(c.minutes), Pad2(c.seconds));
  }

  /** A negative duration shows as a time just under an hour: the truncated
      seconds are -1, which the floor `divmod` turns into 59 minutes 59
      seconds of hour -1, and the hour is then not shown. */
  lemma NegativeDurationShowsUnderAnHour()
    ensures FormatDuration(-1500) == "59:59"
  {
    assert TruncDiv1000(-1500) == -1;
    assert SplitClock(-1) == Clock(-1, 59, 59);
    assert Decimal(5) == "5" && Decimal(9) == "9";
    assert Decimal(59) == Decimal(5) + [DigitChar(9)];
  }

  /** Every negative duration is rendered in the short form, without a sign:
      from one second below zero on the hour count is negative and hidden,
      and less than a second below zero truncates to `0:00`. */
  lemma NegativeDurationsUseShortForm(ms: int)
    requires ms < 0
    ensures var c := SplitClock(TruncDiv1000(ms));
            && (ms <= -1000 ==> c.hours < 0)
            && FormatDuration(ms) == Decimal(c.minutes) + ":" + Pad2(c.seconds)
    ensures -1000 < ms ==> FormatDuration(ms) == "0:00"
  {
    var r := TruncDiv1000(ms);
    if -1000 < ms {
      assert r == 0;
      assert SplitClock(0) == Clock(0, 0, 0);
      assert Decimal(0) == "0" && Pad2(0) == "00";
    }
  }
}

=== FILE: library_commands.dfy ===
/** The logic of the library commands, as pure functions over explicit inputs:
    resolving a typed library name against the stored names, paging through
    a library, turning a user's 1-based track number into a position,
    re-resolving stored tracks when a library is loaded into the queue, and
    saving the current song and the queue into a library.

    Stored names come with `keys`, the order in which the guild's file lists
    them; Unicode normalisation is the parameter `normalize`. */
module LibraryCommands {
  import opened Common
  import opened Tracks
  import opened LibraryStore
  import Playback

  // ---------------------------------------------------------- name lookup

  /** Position of the first key with the same normal form as `name`. */
  function FirstNormalMatch(keys: seq<string>, name: string, normalize: string -> string): (r: Option<nat>)
    ensures r.Some? ==> r.value < |keys| && normalize(keys[r.value]) == normalize(name)
    ensures r.Some? ==> forall j :: 0 <= j < r.value ==> normalize(keys[j]) != normalize(name)
    ensures r.None? ==> forall j :: 0 <= j < |keys| ==> normalize(keys[j]) != normalize(name)
    decreases |keys|
  {
    if keys == [] then None
    else if normalize(keys[0]) == normalize(name) then Some(0)
    else match FirstNormalMatch(keys[1..], name, normalize)
      case None => None
      case Some(i) => Some(i + 1)
  }

  /** The stored name a typed name refers to: itself when stored verbatim,
      else the first stored name with the same normal form, else none. */
  function FindLibraryName(keys: seq<string>, name: string, normalize: string -> string): (r: Option<string>)
    ensures name in keys ==> r == Some(name)
    ensures r.Some? ==> r.value in keys && normalize(r.value) == normalize(name)
    ensures r.None? <==> forall k :: k in keys ==> normalize(k) != normalize(name)
    ensures r.Some? && name !in keys ==>
              exists i :: 0 <= i < |keys| && keys[i] == r.value &&
                forall j :: 0 <= j < i ==> normalize(keys[j]) != normalize(name)
  {
    if name in keys then Some(name)
    else match FirstNormalMatch(keys, name, normalize)
      case None => None
      case Some(i) => Some(keys[i])
  }

  /** A resolved name resolves to itself. */
  lemma FindLibraryNameIdempotent(keys: seq<string>, name: string, normalize: string -> string)
    requires FindLibraryName(keys, name, normalize).Some?
    ensures var found := FindLibraryName(keys, name, normalize).value;
            FindLibraryName(keys, found, normalize) == Some(found)
  {
  }

  // ----------------------------------------------------------- pagination

  const TracksPerPage: nat := 10

  /** The page shown, the page count, and the half-open range of positions
      on that page. */
  datatype Window = Window(page: nat, totalPages: nat, start: nat, end: nat)

  /** Paging a non-empty library: the requested page is clamped into
      `[1, totalPages]`. An empty library is answered before paging. */
  function ViewWindow(n: nat, page: int): (r: Window)
    requires n > 0
    ensures (r.totalPages - 1) * TracksPerPage < n <= r.totalPages * TracksPerPage
    ensures 1 <= r.page <= r.totalPages
    ensures 1 <= page <= r.totalPages ==> r.page == page
    ensures page < 1 ==> r.page == 1
    ensures page > r.totalPages ==> r.page == r.totalPages
    ensures r.start == (r.page - 1) * TracksPerPage
    ensures r.end == Min(r.start + TracksPerPage, n)
    ensures r.start < r.end <= n
  {
    var total := (n + TracksPerPage - 1) / TracksPerPage;
    var p := if page < 1 then 1 else page;
    var p := if p > total then total else p;
    var start := (p - 1) * TracksPerPage;
    Window(p, total, start, Min(start + TracksPerPage, n))
  }

  /** Every position of a library is shown on exactly one page: the page
      `i / 10 + 1`. */
  lemma PagesPartitionTracks(n: nat, i: nat, p: int)
    requires i < n
    ensures var w := ViewWindow(n, i / TracksPerPage + 1); w.page == i / TracksPerPage + 1 && w.start <= i < w.end
    ensures var w := ViewWindow(n, p);
            1 <= p <= w.totalPages && w.start <= i < w.end ==> p == i / TracksPerPage + 1
  {
    var w := ViewWindow(n, i / TracksPerPage + 1);
    assert i / TracksPerPage * TracksPerPage <= i < (i / TracksPerPage + 1) * TracksPerPage;
    assert i / TracksPerPage + 1 <= w.totalPages;
  }

  /** One line of a page: the user-facing 1-based number and the track. */
  datatype Entry = Entry(number: nat, track: TrackData)

  datatype View = EmptyLibrary | PageView(page: nat, totalPages: nat, entries: seq<Entry>)

  /** The entries of a library page, numbered on from the page's start. */
  function LibraryView(tracks: seq<TrackData>, page: int): (r: View)
    ensures r.EmptyLibrary? <==> tracks == []
    ensures r.PageView? ==> 1 <= |r.entries| <= TracksPerPage
    ensures r.PageView? ==>
              forall k :: 0 <= k < |r.entries| ==>
                TrackIndex(|tracks|, r.entries[k].number).Some? &&
                tracks[TrackIndex(|tracks|, r.entries[k].number).value] == r.entries[k].track
  {
    if tracks == [] then EmptyLibrary
    else
      var w := ViewWindow(|tracks|, page);
      PageView(w.page, w.totalPages,
               seq(w.end - w.start, k requires 0 <= k < w.end - w.start => Entry(w.start + k + 1, tracks[w.start + k])))
  }

  // ------------------------------------------------------- track numbers

  /** A user's 1-based track number as a list position, if it names one. */
  function TrackIndex(n: nat, number: int): (r: Option<nat>)
    ensures r.Some? <==> 1 <= number <= n
    ensures r.Some? ==> r.value < n && r.value + 1 == number
  {
    if 1 <= number <= n then Some(number - 1) else None
  }

  datatype RemoveReply = NoSuchLibrary | InvalidNumber(count: nat) | Removed(track: TrackData) | RemoveFailed

  /** The remove command: resolve the name, check the number against the
      library's size, and remove that position. */
  function LibraryRemove(f: StoreFile, keys: seq<string>, name: string, number: int,
                         normalize: string -> string, io: Io): (r: Saved<RemoveReply>)
    requires forall k :: k in keys <==> k in Contents(f)
    ensures FindLibraryName(keys, name, normalize).None? <==> r.value == NoSuchLibrary
    ensures !r.value.Removed? ==> Contents(r.file) == Contents(f)
    ensures FindLibraryName(keys, name, normalize).Some? ==>
              var found := FindLibraryName(keys, name, normalize).value;
              var lib := Contents(f)[found];
              && (r.value.InvalidNumber? <==> !(1 <= number <= |lib|))
              && (r.value.InvalidNumber? ==> r.value.count == |lib|)
              && (r.value.Removed? <==> 1 <= number <= |lib| && io.writeOk)
              && (r.value.Removed? ==>
                    r.value.track == lib[number - 1] &&
                    Contents(r.file) == Contents(f)[found := RemoveAt(lib, number - 1)])
  {
    var l := Load(f, io.recoverOk);
    match FindLibraryName(keys, name, normalize)
    case None => Saved(l.file, NoSuchLibrary)
    case Some(found) =>
      var got := GetLibrary(l.file, found, io.recoverOk);
      var tracks := got.value.GetOr([]);
      match TrackIndex(|tracks|, number)
      case None => Saved(got.file, InvalidNumber(|tracks|))
      case Some(i) =>
        var rm := LibraryStore.RemoveTrack(got.file, found, i, io);
        if rm.value then Saved(rm.file, Removed(tracks[i])) else Saved(rm.file, RemoveFailed)
  }

  /** A number shown next to a track in the library view removes that very
      track. */
  lemma ShownNumberRemovesShownTrack(f: StoreFile, keys: seq<string>, name: string, page: int,
                                     k: nat, normalize: string -> string, io: Io)
    requires forall key :: key in keys <==> key in Contents(f)
    requires name in keys && io.writeOk
    requires LibraryView(Contents(f)[name], page).PageView?
    requires k < |LibraryView(Contents(f)[name], page).entries|
    ensures var e := LibraryView(Contents(f)[name], page).entries[k];
            LibraryRemove(f, keys, name, e.number, normalize, io).value == Removed(e.track)
  {
  }

  // --------------------------------------------------------- library load

  /** A search for a stored track: the query text and whether it is a
      YouTube search (as opposed to a direct identifier or link lookup). */
  datatype Query = Query(text: string, youtube: bool)

  /** The track a fetch yields for loading: the first of a non-empty list or
      of a non-empty playlist. */
  function FirstTrack(f: Playback.Fetch): (r: Option<Track>)
    ensures r.Some? <==> (f.TrackList? && f.tracks != []) || (f.PlaylistResult? && f.items != [])
  {
    match f
    case FetchRaised => None
    case TrackList(ts) => if ts == [] then None else Some(ts[0])
    case PlaylistResult(_, items) => if items == [] then None else Some(items[0])
  }

  function Try(q: Query, fetch: (string, bool) -> Playback.Fetch): Option<Track>
  {
    FirstTrack(fetch(q.text, q.youtube))
  }

  predicate Truthy(s: Option<string>)
  {
    s.Some? && s.value != ""
  }

  /** The text search for a stored track: title and author when both are
      known, the title alone without an author, and no search without a title. */
  function TitleQuery(d: TrackData): (r: Option<string>)
    ensures r.None? <==> !Truthy(d.title)
    ensures r.Some? ==> |r.value| >= |d.title.value| && r.value[..|d.title.value|] == d.title.value
    ensures r.Some? && Truthy(d.author) ==> r.value == d.title.value + " " + d.author.value
    ensures r.Some? && !Truthy(d.author) ==> r.value == d.title.value
  {
    if !Truthy(d.title) then None
    else if Truthy(d.author) then Some(d.title.value + " " + d.author.value)
    else Some(d.title.value)
  }

  /** Reference order of the lookups for one stored track: by identifier,
      then by link, then by text search, each only when its field is set. */
  function Attempts(d: TrackData): (r: seq<Query>)
    ensures |r| <= 3
    ensures r == [] <==> !Truthy(d.identifier) && !Truthy(d.uri) && !Truthy(d.title)
  {
    (if Truthy(d.identifier) then [Query("identifier:" + d.identifier.value, false)] else [])
    + (if Truthy(d.uri) then [Query(d.uri.value, false)] else [])
    + (match TitleQuery(d) case Some(q) => [Query(q, true)] case None => [])
  }

  /** The result of the first lookup that yields a track. */
  function FirstSuccess(qs: seq<Query>, fetch: (string, bool) -> Playback.Fetch): (r: Option<Track>)
    ensures r.None? <==> forall i :: 0 <= i < |qs| ==> Try(qs[i], fetch).None?
    ensures r.Some? ==> exists i :: 0 <= i < |qs| && Try(qs[i], fetch) == r &&
                          forall j :: 0 <= j < i ==> Try(qs[j], fetch).None?
    decreases |qs|
  {
    if qs == [] then None
    else match Try(qs[0], fetch)
      case Some(t) => Some(t)
      case None =>
        var rest := FirstSuccess(qs[1..], fetch);
        assert forall j :: 1 <= j < |qs| ==> qs[j] == qs[1..][j - 1];
        rest
  }

  /** The fallback chain for one stored track, as the load command runs it:
      a lookup that raises or finds nothing moves on to the next one. */
  function ResolveTrack(d: TrackData, fetch: (string, bool) -> Playback.Fetch): Option<Track>
  {
    var byId := if Truthy(d.identifier) then Try(Query("identifier:" + d.identifier.value, false), fetch) else None;
    if byId.Some? then byId
    else
      var byUri := if Truthy(d.uri) then Try(Query(d.uri.value, false), fetch) else None;
      if byUri.Some? then byUri
      else match TitleQuery(d)
        case Some(q) => Try(Query(q, true), fetch)
        case None => None
  }

  /** The fallback chain yields the first success in the reference order. */
  lemma {:induction false} ResolveIsFirstSuccess(d: TrackData, fetch: (string, bool) -> Playback.Fetch)
    ensures ResolveTrack(d, fetch) == FirstSuccess(Attempts(d), fetch)
  {
    var a := if Truthy(d.identifier) then [Query("identifier:" + d.identifier.value, false)] else [];
    var b := if Truthy(d.uri) then [Query(d.uri.value, false)] else [];
    var c := match TitleQuery(d) case Some(q) => [Query(q, true)] case None => [];
    assert Attempts(d) == a + (b + c);
    FirstSuccessAppend(a, b + c, fetch);
    FirstSuccessAppend(b, c, fetch);
    assert FirstSuccess(c, fetch) == (match TitleQuery(d) case Some(q) => Try(Query(q, true), fetch) case None => None) by {
      if c != [] {
        assert FirstSuccess(c[1..], fetch) == None;
      }
    }
  }

  lemma {:induction false} FirstSuccessAppend(a: seq<Query>, b: seq<Query>, fetch: (string, bool) -> Playback.Fetch)
    requires |a| <= 1
    ensures FirstSuccess(a + b, fetch) ==
              if a != [] && Try(a[0], fetch).Some? then Try(a[0], fetch) else FirstSuccess(b, fetch)
  {
    if a != [] {
      assert (a + b)[1..] == b;
    } else {
      assert a + b == b;
    }
  }

  /** The tracks that stored entries resolve to, in order, skipping those
      that resolve to nothing. */
  function Found(order: seq<TrackData>, fetch: (string, bool) -> Playback.Fetch): (r: seq<Track>)
    ensures |r| <= |order|
    decreases |order|
  {
    if order == [] then []
    else
      var n := |order| - 1;
      match ResolveTrack(order[n], fetch)
      case Some(t) => Found(order[..n], fetch) + [t]
      case None => Found(order[..n], fetch)
  }

  /** After loading: the queue, the current song the command recorded, the
      commands sent to the player, and the counts in the reply. */
  datatype LoadOutcome = LoadOutcome(
    queue: seq<Track>, current: Option<Track>, commands: seq<Playback.Command>, added: nat, skipped: nat)

  /** Load the stored tracks of a library into the queue, optionally in a
      shuffled order: each is resolved by the fallback chain and appended,
      or counted as skipped. If the player has nothing playing and something
      was added, the head of the queue is popped and played; it is recorded
      as current only if the play request succeeds, and is dropped otherwise.
      Returns the order the entries were tried in along with the outcome. */
  method LoadTracks(queue: seq<Track>, current: Option<Track>, stored: seq<TrackData>, shuffle: bool,
                    playerCurrent: Option<Track>, fetch: (string, bool) -> Playback.Fetch, playOk: Track -> bool)
    returns (order: seq<TrackData>, r: LoadOutcome)
    ensures multiset(order) == multiset(stored)
    ensures !shuffle ==> order == stored
    ensures r.added + r.skipped == |stored|
    ensures r.added == |Found(order, fetch)|
    ensures var all := queue + Found(order, fetch);
            if playerCurrent.None? && r.added > 0 then
              && r.commands == [Playback.Play(all[0])]
              && r.queue == all[1..]
              && r.current == (if playOk(all[0]) then Some(all[0]) else current)
            else r.commands == [] && r.queue == all && r.current == current
  {
    order := stored;
    if shuffle {
      var o: seq<TrackData>;
      o :| multiset(o) == multiset(stored);
      order := o;
    }
    assert |order| == |multiset(order)| == |stored|;
    var q, added, skipped := ResolveAll(queue, order, fetch);
    if playerCurrent.None? && added > 0 {
      var next := q[0];
      var cur := if playOk(next) then Some(next) else current;
      r := LoadOutcome(q[1..], cur, [Playback.Play(next)], added, skipped);
    } else {
      r := LoadOutcome(q, current, [], added, skipped);
    }
  }

  /** Resolve each entry in turn, appending what it resolves to. */
  method ResolveAll(queue: seq<Track>, order: seq<TrackData>, fetch: (string, bool) -> Playback.Fetch)
    returns (q: seq<Track>, added: nat, skipped: nat)
    ensures q == queue + Found(order, fetch)
    ensures added == |Found(order, fetch)|
    ensures added + skipped == |order|
  {
    q := queue;
    added, skipped := 0, 0;
    var i := 0;
    while i < |order|
      invariant 0 <= i <= |order|
      invariant added + skipped == i
      invariant q == queue + Found(order[..i], fetch)
      invariant added == |Found(order[..i], fetch)|
    {
      assert order[..i + 1][..i] == order[..i];
      match ResolveTrack(order[i], fetch) {
        case Some(t) =>
          q := q + [t];
          added := added + 1;
        case None =>
          skipped := skipped + 1;
      }
      i := i + 1;
    }
    assert order[..i] == order;
  }

  // ------------------------------------------------------ save the queue

  /** How a playing track is written into a library. */
  function ToData(t: Track): TrackData
  {
    TrackData(Some(t.title), Some(t.author), Some(t.length), Some(t.uri), Some(t.identifier),
              Some(t.isStream), t.artworkUrl)
  }

  /** What a save offers to the library: the current song first, then the
      queue in order. */
  function Offered(current: Option<Track>, queue: seq<Track>): (r: seq<TrackData>)
    ensures |r| == |queue| + (if current.Some? then 1 else 0)
    ensures current.Some? ==> r[0] == ToData(current.value)
    ensures forall i :: 0 <= i < |queue| ==> r[|r| - |queue| + i] == ToData(queue[i])
  {
    (if current.Some? then [ToData(current.value)] else [])
    + seq(|queue|, i requires 0 <= i < |queue| => ToData(queue[i]))
  }

  /** Reference for repeated adds: the library after offering `ds` one at a
      time, each refused when its non-empty URI is already present. */
  function Accepted(lib: seq<TrackData>, ds: seq<TrackData>): (r: seq<TrackData>)
    ensures |lib| <= |r| <= |lib| + |ds|
    ensures r[..|lib|] == lib
    decreases |ds|
  {
    if ds == [] then lib
    else
      var a := Accepted(lib, ds[..|ds| - 1]);
      var d := ds[|ds| - 1];
      if IsDuplicate(a, d) then a else a + [d]
  }

  /** Offering any tracks keeps a library free of shared non-empty URIs. */
  lemma {:induction false} AcceptedKeepsUriDistinct(lib: seq<TrackData>, ds: seq<TrackData>)
    requires UriDistinct(lib)
    ensures UriDistinct(Accepted(lib, ds))
    decreases |ds|
  {
    if ds != [] {
      var a := Accepted(lib, ds[..|ds| - 1]);
      AcceptedKeepsUriDistinct(lib, ds[..|ds| - 1]);
      var d := ds[|ds| - 1];
      if !IsDuplicate(a, d) {
        AppendKeepsUriDistinct(a, d);
      }
    }
  }

  /** One add against a library holding `Accepted(base, ds)` leaves it
      holding `Accepted(base, ds + [d])`, and succeeds exactly when the
      library grew. */
  lemma AddTrackAccepts(file: StoreFile, c0: Libraries, target: string, base: seq<TrackData>,
                        ds: seq<TrackData>, d: TrackData, io: Io)
    requires io.writeOk
    requires target in c0
    requires Contents(file) == c0[target := Accepted(base, ds)]
    ensures var a := LibraryStore.AddTrack(file, target, d, io);
            && Contents(a.file) == c0[target := Accepted(base, ds + [d])]
            && (a.value <==> |Accepted(base, ds + [d])| == |Accepted(base, ds)| + 1)
  {
    var acc := Accepted(base, ds);
    AcceptedStep(base, ds, d);
    DuplicateMeansSameUri(acc, d);
  }

  lemma AcceptedStep(base: seq<TrackData>, ds: seq<TrackData>, d: TrackData)
    ensures Accepted(base, ds + [d]) ==
              if IsDuplicate(Accepted(base, ds), d) then Accepted(base, ds) else Accepted(base, ds) + [d]
  {
    assert (ds + [d])[..|ds|] == ds;
  }

  lemma DuplicateMeansSameUri(lib: seq<TrackData>, d: TrackData)
    ensures IsDuplicate(lib, d) <==> HasUri(d) && exists i :: 0 <= i < |lib| && lib[i].uri == d.uri
  {
  }

  /** Offer each of `offered` to the library `target` in turn. */
  method AddAll(f: StoreFile, target: string, offered: seq<TrackData>, io: Io)
    returns (file: StoreFile, added: nat, skipped: nat)
    requires target in Contents(f)
    ensures added + skipped == |offered|
    ensures io.writeOk ==> Contents(file) == Contents(f)[target := Accepted(Contents(f)[target], offered)]
    ensures io.writeOk ==> added == |Accepted(Contents(f)[target], offered)| - |Contents(f)[target]|
    ensures !io.writeOk ==> Contents(file) == Contents(f) && added == 0
  {
    ghost var c0 := Contents(f);
    ghost var base := c0[target];
    assert c0[target := Accepted(base, [])] == c0;
    file := f;
    added, skipped := 0, 0;
    var i := 0;
    while i < |offered|
      invariant 0 <= i <= |offered|
      invariant added + skipped == i
      invariant io.writeOk ==> Contents(file) == c0[target := Accepted(base, offered[..i])]
      invariant io.writeOk ==> added == |Accepted(base, offered[..i])| - |base|
      invariant !io.writeOk ==> Contents(file) == c0 && added == 0
    {
      assert offered[..i + 1] == offered[..i] + [offered[i]];
      if io.writeOk {
        AddTrackAccepts(file, c0, target, base, offered[..i], offered[i], io);
      }
      var a := LibraryStore.AddTrack(file, target, offered[i], io);
      file := a.file;
      if a.value {
        added := added + 1;
      } else {
        skipped := skipped + 1;
      }
      i := i + 1;
    }
    assert offered[..i] == offered;
  }

  datatype SaveReply = NothingToSave | CreateFailed | QueueSaved(name: string, added: nat, skipped: nat)

  /** The save-queue command: refuse when nothing is playing or queued,
      create the library when the name resolves to none, then add the
      offered tracks one by one, counting refusals as skipped. */
  method SaveQueue(f: StoreFile, keys: seq<string>, name: string, normalize: string -> string,
                   current: Option<Track>, queue: seq<Track>, io: Io)
    returns (r: Saved<SaveReply>)
    requires forall k :: k in keys <==> k in Contents(f)
    ensures r.value == NothingToSave <==> queue == [] && current.None?
    ensures r.value == CreateFailed <==>
              (queue != [] || current.Some?) && FindLibraryName(keys, name, normalize).None? && !io.writeOk
    ensures !r.value.QueueSaved? ==> Contents(r.file) == Contents(f)
    ensures r.value.QueueSaved? ==>
              var found := FindLibraryName(keys, name, normalize);
              var target := if found.Some? then found.value else name;
              var base := if found.Some? then Contents(f)[target] else [];
              var lib := Accepted(base, Offered(current, queue));
              && r.value.name == target
              && r.value.added + r.value.skipped == |Offered(current, queue)|
              && (io.writeOk ==> Contents(r.file) == Contents(f)[target := lib] && r.value.added == |lib| - |base|)
              && (!io.writeOk ==> Contents(r.file) == Contents(f) && r.value.added == 0)
  {
    if queue == [] && current.None? {
      return Saved(f, NothingToSave);
    }
    var l := Load(f, io.recoverOk);
    var file := l.file;
    var found := FindLibraryName(keys, name, normalize);
    var target := if found.Some? then found.value else name;
    if found.None? {
      var c := CreateLibrary(file, name, io);
      if !c.value {
        return Saved(c.file, CreateFailed);
      }
      file := c.file;
    }
    assert target in Contents(file);
    var added, skipped;
    file, added, skipped := AddAll(file, target, Offered(current, queue), io);
    r := Saved(file, QueueSaved(target, added, skipped));
  }
}

=== FILE: library_store.dfy ===
/** The named track libraries of one guild, kept in that guild's JSON file.
    The file is an abstract store: it may be missing, hold a decodable
    mapping, hold bytes that do not decode, or hold a mapping that cannot be
    read for another reason. Every operation reloads the file first. A
    successful read sees what the last successful save wrote; a file that
    does not decode or cannot be read is seen as empty, and the next
    successful save replaces it, libraries and all. Whether the
    recovery of a corrupt file and a save succeed is decided by an `Io`
    oracle, since the model does no file I/O. */
module LibraryStore {
  import opened Common

  /** One stored track: a JSON object whose keys may be missing or null,
      both of which read back as `None`. */
  datatype TrackData = TrackData(
    title: Option<string>,
    author: Option<string>,
    length: Option<int>,
    uri: Option<string>,
    identifier: Option<string>,
    isStream: Option<bool>,
    artworkUrl: Option<string>)

  type Libraries = map<string, seq<TrackData>>

  /** `Unreadable` still holds its libraries on disk; only reading them fails. */
  datatype StoreFile = Absent | Stored(libs: Libraries) | Corrupt | Unreadable(held: Libraries)

  /** Whether recreating a corrupt file and writing a new one succeed. */
  datatype Io = Io(recoverOk: bool, writeOk: bool)

  /** The file after an operation, and the operation's return value. */
  datatype Saved<+T> = Saved(file: StoreFile, value: T)

  /** What a load of the file yields: its mapping, or the empty mapping
      for every failure. */
  function Contents(f: StoreFile): Libraries
  {
    if f.Stored? then f.libs else map[]
  }

  /** A truthy URI: present and non-empty. */
  predicate HasUri(d: TrackData)
  {
    d.uri.Some? && d.uri.value != ""
  }

  /** Within one library no two tracks share a non-empty URI. */
  predicate UriDistinct(lib: seq<TrackData>)
  {
    forall i, j :: 0 <= i < j < |lib| && HasUri(lib[i]) ==> lib[i].uri != lib[j].uri
  }

  predicate AllUriDistinct(libs: Libraries)
  {
    forall name :: name in libs ==> UriDistinct(libs[name])
  }

  /** Load the guild's libraries. A missing or unreadable file loads as
      empty. A file that does not decode also loads as empty; if the backup
      and the rewrite succeed, the file is replaced by an empty mapping. */
  function Load(f: StoreFile, recoverOk: bool): (r: Saved<Libraries>)
    ensures r.value == Contents(f)
    ensures Contents(r.file) == Contents(f)
    ensures r.file != f ==> f.Corrupt? && recoverOk && r.file == Stored(map[])
  {
    match f
    case Absent => Saved(f, map[])
    case Stored(libs) => Saved(f, libs)
    case Corrupt => if recoverOk then Saved(Stored(map[]), map[]) else Saved(f, map[])
    case Unreadable(_) => Saved(f, map[])
  }

  /** Write through a temporary file and rename it into place: either the
      new mapping is stored and the result is true, or the file is left as
      it was and the result is false. */
  function Save(f: StoreFile, libs: Libraries, writeOk: bool): (r: Saved<bool>)
    ensures r.value == writeOk
    ensures r.value ==> Contents(r.file) == libs
    ensures !r.value ==> r.file == f
  {
    if writeOk then Saved(Stored(libs), true) else Saved(f, false)
  }

  /** The duplicate scan: does any track of `lib` carry exactly the URI `u`? */
  function UriTaken(lib: seq<TrackData>, u: string): (r: bool)
    ensures r <==> exists i :: 0 <= i < |lib| && lib[i].uri == Some(u)
  {
    if lib == [] then false
    else lib[0].uri == Some(u) || UriTaken(lib[1..], u)
  }

  /** `d` would be rejected as a duplicate of a track already in `lib`. */
  predicate IsDuplicate(lib: seq<TrackData>, d: TrackData)
  {
    HasUri(d) && UriTaken(lib, d.uri.value)
  }

  function CreateLibrary(f: StoreFile, name: string, io: Io): (r: Saved<bool>)
    ensures r.value <==> name !in Contents(f) && io.writeOk
    ensures r.value ==> Contents(r.file) == Contents(f)[name := []]
    ensures !r.value ==> Contents(r.file) == Contents(f)
  {
    var l := Load(f, io.recoverOk);
    if name in l.value then Saved(l.file, false)
    else Save(l.file, l.value[name := []], io.writeOk)
  }

  function DeleteLibrary(f: StoreFile, name: string, io: Io): (r: Saved<bool>)
    ensures r.value <==> name in Contents(f) && io.writeOk
    ensures r.value ==> Contents(r.file) == Contents(f) - {name}
    ensures !r.value ==> Contents(r.file) == Contents(f)
  {
    var l := Load(f, io.recoverOk);
    if name !in l.value then Saved(l.file, false)
    else Save(l.file, l.value - {name}, io.writeOk)
  }

  /** Append a track to a library. Refused when the library is missing or
      when the track's non-empty URI is already present; a track without a
      URI, or with an empty one, is never a duplicate. */
  function AddTrack(f: StoreFile, name: string, d: TrackData, io: Io): (r: Saved<bool>)
    ensures r.value <==> name in Contents(f) && io.writeOk
                         && !(HasUri(d) && exists i :: 0 <= i < |Contents(f)[name]| && Contents(f)[name][i].uri == d.uri)
    ensures r.value ==> Contents(r.file) == Contents(f)[name := Contents(f)[name] + [d]]
    ensures !r.value ==> Contents(r.file) == Contents(f)
  {
    var l := Load(f, io.recoverOk);
    if name !in l.value then Saved(l.file, false)
    else if IsDuplicate(l.value[name], d) then Saved(l.file, false)
    else Save(l.file, l.value[name := l.value[name] + [d]], io.writeOk)
  }

  /** Remove the track at a 0-based position; negative and too-large
      positions are refused rather than wrapped. */
  function RemoveTrack(f: StoreFile, name: string, index: int, io: Io): (r: Saved<bool>)
    ensures r.value <==> name in Contents(f) && 0 <= index < |Contents(f)[name]| && io.writeOk
    ensures r.value ==> Contents(r.file) == Contents(f)[name := RemoveAt(Contents(f)[name], index)]
    ensures !r.value ==> Contents(r.file) == Contents(f)
  {
    var l := Load(f, io.recoverOk);
    if name !in l.value then Saved(l.file, false)
    else if index < 0 || index >= |l.value[name]| then Saved(l.file, false)
    else Save(l.file, l.value[name := RemoveAt(l.value[name], index)], io.writeOk)
  }

  function GetLibrary(f: StoreFile, name: string, recoverOk: bool): (r: Saved<Option<seq<TrackData>>>)
    ensures r.value.Some? <==> name in Contents(f)
    ensures r.value.Some? ==> r.value.value == Contents(f)[name]
    ensures Contents(r.file) == Contents(f)
  {
    var l := Load(f, recoverOk);
    if name !in l.value then Saved(l.file, None) else Saved(l.file, Some(l.value[name]))
  }

  /** Each library name with its number of tracks. */
  function ListLibraries(f: StoreFile, recoverOk: bool): (r: Saved<map<string, nat>>)
    ensures r.value.Keys == Contents(f).Keys
    ensures forall name :: name in r.value ==> r.value[name] == |Contents(f)[name]|
    ensures Contents(r.file) == Contents(f)
  {
    var l := Load(f, recoverOk);
    Saved(l.file, map name | name in l.value :: |l.value[name]|)
  }

  /** What a successful save wrote is what the next load returns. */
  lemma SaveThenLoad(f: StoreFile, libs: Libraries, recoverOk: bool)
    ensures Load(Save(f, libs, true).file, recoverOk).value == libs
  {
  }

  /** No operation can make two tracks of one library share a non-empty URI. */
  lemma {:induction false} OperationsKeepUrisDistinct(f: StoreFile, name: string, d: TrackData, index: int, io: Io)
    requires AllUriDistinct(Contents(f))
    ensures AllUriDistinct(Contents(CreateLibrary(f, name, io).file))
    ensures AllUriDistinct(Contents(DeleteLibrary(f, name, io).file))
    ensures AllUriDistinct(Contents(AddTrack(f, name, d, io).file))
    ensures AllUriDistinct(Contents(RemoveTrack(f, name, index, io).file))
  {
    var c := Contents(f);
    if AddTrack(f, name, d, io).value {
      AppendKeepsUriDistinct(c[name], d);
    }
    if RemoveTrack(f, name, index, io).value {
      RemoveKeepsUriDistinct(c[name], index);
    }
  }

  lemma AppendKeepsUriDistinct(lib: seq<TrackData>, d: TrackData)
    requires UriDistinct(lib)
    requires !(HasUri(d) && exists i :: 0 <= i < |lib| && lib[i].uri == d.uri)
    ensures UriDistinct(lib + [d])
  {
    var l := lib + [d];
    forall i, j | 0 <= i < j < |l| && HasUri(l[i])
      ensures l[i].uri != l[j].uri
    {
      if j == |lib| {
        assert l[i] == lib[i];
      }
    }
  }

  lemma RemoveKeepsUriDistinct(lib: seq<TrackData>, index: int)
    requires UriDistinct(lib)
    requires 0 <= index < |lib|
    ensures UriDistinct(RemoveAt(lib, index))
  {
    var l := RemoveAt(lib, index);
    forall i, j | 0 <= i < j < |l| && HasUri(l[i])
      ensures l[i].uri != l[j].uri
    {
      var i' := if i < index then i else i + 1;
      var j' := if j < index then j else j + 1;
      assert l[i] == lib[i'] && l[j] == lib[j'];
    }
  }

  /** Once a track with a non-empty URI is in a library, adding any track
      with that URI again is refused and stores nothing. */
  lemma SecondAddIsRefused(f: StoreFile, name: string, d: TrackData, e: TrackData, io: Io, io2: Io)
    requires HasUri(d) && e.uri == d.uri
    requires AddTrack(f, name, d, io).value
    ensures !AddTrack(AddTrack(f, name, d, io).file, name, e, io2).value
  {
    var lib := Contents(AddTrack(f, name, d, io).file)[name];
    assert lib[|lib| - 1] == d;
  }

  /** Adding a track and then removing the last position restores the store. */
  lemma AddThenRemoveLastRestores(f: StoreFile, name: string, d: TrackData, io: Io)
    requires AddTrack(f, name, d, io).value
    ensures var f1 := AddTrack(f, name, d, io).file;
            Contents(RemoveTrack(f1, name, |Contents(f)[name]|, io).file) == Contents(f)
  {
    var lib := Contents(f)[name];
    assert RemoveAt(lib + [d], |lib|) == lib;
  }

  /** Creating a library and deleting it again restores the store. */
  lemma CreateThenDeleteRestores(f: StoreFile, name: string, io: Io)
    requires CreateLibrary(f, name, io).value
    ensures Contents(DeleteLibrary(CreateLibrary(f, name, io).file, name, io).file) == Contents(f)
  {
    assert Contents(f)[name := []] - {name} == Contents(f);
  }

  /** A read failure is not an empty library file: creating a library over an
      unreadable file that the next write reaches stores that library alone,
      and every library the file held is gone. */
  lemma UnreadableStoreIsOverwritten(held: Libraries, name: string, io: Io)
    requires io.writeOk
    ensures var r := CreateLibrary(Unreadable(held), name, io);
            && r.value
            && r.file == Stored(map[name := []])
            && forall n :: n in held && n != name ==> n !in Contents(r.file)
  {
  }

  /** A store whose file does not decode lists no libraries, and afterwards
      (when the rewrite succeeded) holds an empty mapping. */
  lemma CorruptStoreListsNothing(recoverOk: bool)
    ensures ListLibraries(Corrupt, recoverOk).value == map[]
    ensures recoverOk ==> ListLibraries(Corrupt, recoverOk).file == Stored(map[])
  {
  }
}

=== FILE: music_queue.dfy ===
/** The per-guild playback state: a queue of tracks per guild, the current
    song, a bounded author play history, a bounded (title, author)
    recommendation history, the recommendation and replay flags, the bound text
    channel, and the set of guilds that have a lock.

    Every mutation is a pure function from state to state. The per-guild lock
    of the original is a sequential call here; only its registry (which keys
    have a lock) is kept, because guild cleanup deletes from it. */
module MusicQueue {
  import opened Common
  import opened Tracks

  type GuildId = int

  /** Opaque handle of a text channel. */
  type Channel = nat

  datatype QueueState = QueueState(
    queues: map<GuildId, seq<Track>>,
    locks: set<GuildId>,
    currentSongs: map<GuildId, Track>,
    playHistory: map<GuildId, seq<string>>,
    textChannels: map<GuildId, Channel>,
    recommendationEnabled: map<GuildId, bool>,
    recommendationHistory: map<GuildId, seq<TrackId>>,
    replayEnabled: map<GuildId, bool>,
    maxHistorySize: nat)

  /** A new state and the value an operation returned. */
  datatype Step<+T> = Step(state: QueueState, value: T)

  /** A fresh manager: every guild starts with an empty queue, no song, empty
      histories, no text channel and both switches off. */
  function Create(maxHistorySize: nat): (r: QueueState)
    ensures r.maxHistorySize == maxHistorySize
    ensures Bounded(r)
    ensures forall g :: Queue(r, g) == [] && GetCurrentSong(r, g) == None && GetTextChannel(r, g) == None
    ensures forall g :: History(r, g) == [] && RecHistory(r, g) == []
    ensures forall g :: !GetReplayStatus(r, g) && !GetRecommendationStatus(r, g)
  {
    QueueState(map[], {}, map[], map[], map[], map[], map[], map[], maxHistorySize)
  }

  /** The guild's queue; a guild that never queued anything has an empty one. */
  function Queue(st: QueueState, g: GuildId): seq<Track>
  {
    if g in st.queues then st.queues[g] else []
  }

  function History(st: QueueState, g: GuildId): seq<string>
  {
    if g in st.playHistory then st.playHistory[g] else []
  }

  function RecHistory(st: QueueState, g: GuildId): seq<TrackId>
  {
    if g in st.recommendationHistory then st.recommendationHistory[g] else []
  }

  /** Both histories respect `maxHistorySize` for every guild. */
  ghost predicate Bounded(st: QueueState)
  {
    && (forall g :: g in st.playHistory ==> |st.playHistory[g]| <= st.maxHistorySize)
    && (forall g :: g in st.recommendationHistory ==> |st.recommendationHistory[g]| <= st.maxHistorySize)
  }

  /** Nothing that belongs to a guild other than `g` differs between `st` and `r`. */
  ghost predicate OthersUnchanged(st: QueueState, r: QueueState, g: GuildId)
  {
    && r.maxHistorySize == st.maxHistorySize
    && r.queues - {g} == st.queues - {g}
    && r.locks - {g} == st.locks - {g}
    && r.currentSongs - {g} == st.currentSongs - {g}
    && r.playHistory - {g} == st.playHistory - {g}
    && r.textChannels - {g} == st.textChannels - {g}
    && r.recommendationEnabled - {g} == st.recommendationEnabled - {g}
    && r.recommendationHistory - {g} == st.recommendationHistory - {g}
    && r.replayEnabled - {g} == st.replayEnabled - {g}
  }

  /** Only the queue map changed, and only at `g`. */
  ghost predicate OnlyQueueChanged(st: QueueState, r: QueueState, g: GuildId)
  {
    r == st.(queues := r.queues) && r.queues - {g} == st.queues - {g}
  }

  /** Running an operation under the guild's lock: the lock is created on first use. */
  function WithLock(st: QueueState, g: GuildId): (r: QueueState)
    ensures g in r.locks
    ensures r == st.(locks := r.locks) && r.locks - {g} == st.locks - {g}
  {
    st.(locks := st.locks + {g})
  }

  // ---------------------------------------------------------------- queue

  function SetQueue(st: QueueState, g: GuildId, q: seq<Track>): (r: QueueState)
    ensures Queue(r, g) == q && g in r.queues
    ensures OnlyQueueChanged(st, r, g)
  {
    st.(queues := st.queues[g := q])
  }

  /** Append at the back, or push at the front when `toFront`. */
  function AddTrack(st: QueueState, g: GuildId, t: Track, toFront: bool): (r: QueueState)
    ensures Queue(r, g) == if toFront then [t] + Queue(st, g) else Queue(st, g) + [t]
    ensures g in r.queues
    ensures OnlyQueueChanged(st, r, g)
  {
    var q := Queue(st, g);
    SetQueue(st, g, if toFront then [t] + q else q + [t])
  }

  /** The source's loop `for track in tracks: append(track)`. */
  function AppendAll(q: seq<Track>, tracks: seq<Track>): (r: seq<Track>)
    ensures r == q + tracks
    decreases |tracks|
  {
    if tracks == [] then q
    else
      var r := AppendAll(q + [tracks[0]], tracks[1..]);
      assert q + [tracks[0]] + tracks[1..] == q + tracks;
      r
  }

  /** The source's loop `for track in reversed(tracks): appendleft(track)`. */
  function PrependAll(q: seq<Track>, tracks: seq<Track>): (r: seq<Track>)
    ensures r == tracks + q
    decreases |tracks|
  {
    if tracks == [] then q
    else
      var n := |tracks| - 1;
      var r := PrependAll([tracks[n]] + q, tracks[..n]);
      assert tracks[..n] + ([tracks[n]] + q) == tracks + q;
      r
  }

  /** Bulk insert that keeps the input order at the tail, or at the head. */
  function AddPlaylist(st: QueueState, g: GuildId, tracks: seq<Track>, toFront: bool): (r: QueueState)
    ensures Queue(r, g) == if toFront then tracks + Queue(st, g) else Queue(st, g) + tracks
    ensures g in r.queues
    ensures OnlyQueueChanged(st, r, g)
  {
    var q := Queue(st, g);
    SetQueue(st, g, if toFront then PrependAll(q, tracks) else AppendAll(q, tracks))
  }

  /** Pop the head of the queue; a missing or empty queue yields None and is left alone. */
  function GetNextTrack(st: QueueState, g: GuildId): (r: Step<Option<Track>>)
    ensures Queue(st, g) == [] ==> r == Step(st, None)
    ensures Queue(st, g) != [] ==>
              && r.value == Some(Queue(st, g)[0])
              && [Queue(st, g)[0]] + Queue(r.state, g) == Queue(st, g)
              && |Queue(r.state, g)| == |Queue(st, g)| - 1
    ensures OnlyQueueChanged(st, r.state, g)
  {
    if g !in st.queues || st.queues[g] == [] then Step(st, None)
    else
      var q := st.queues[g];
      Step(SetQueue(st, g, q[1..]), Some(q[0]))
  }

  /** Look at position `index` (Python indexing: negative counts from the end). */
  function PeekQueue(st: QueueState, g: GuildId, index: int): (r: Fetched<Track>)
    ensures var q := Queue(st, g);
            && (0 <= index < |q| ==> r == Hit(q[index]))
            && (index >= |q| ==> r == Miss)
            && (q != [] && index < 0 && 0 <= |q| + index ==> r == Hit(q[|q| + index]))
            && (q != [] && |q| + index < 0 ==> r == IndexError)
  {
    var q := Queue(st, g);
    if g !in st.queues || q == [] || index >= |q| then Miss
    else
      match PyIndex(|q|, index)
      case Some(i) => Hit(q[i])
      case None => IndexError
  }

  /** Empty the guild's queue if it has one. */
  function ClearQueue(st: QueueState, g: GuildId): (r: QueueState)
    ensures Queue(r, g) == []
    ensures g in r.queues <==> g in st.queues
    ensures OnlyQueueChanged(st, r, g)
  {
    if g in st.queues then SetQueue(st, g, []) else st
  }

  /** Remove the track at `index`; out-of-range indices remove nothing. */
  function RemoveTrack(st: QueueState, g: GuildId, index: int): (r: Step<Fetched<Track>>)
    ensures var q := Queue(st, g);
            && (r.value == Miss <==> q == [] || index >= |q|)
            && (r.value == IndexError <==> q != [] && |q| + index < 0)
            && (!r.value.Hit? ==> r.state == st)
            && (0 <= index < |q| ==>
                  r.value == Hit(q[index]) && Queue(r.state, g) == RemoveAt(q, index))
            && (index < 0 && 0 <= |q| + index ==>
                  r.value == Hit(q[|q| + index]) && Queue(r.state, g) == RemoveAt(q, |q| + index))
            && (r.value.Hit? ==> multiset(Queue(r.state, g)) + multiset{r.value.value} == multiset(q))
    ensures OnlyQueueChanged(st, r.state, g)
  {
    var q := Queue(st, g);
    if g !in st.queues || q == [] || index >= |q| then Step(st, Miss)
    else
      match PyIndex(|q|, index)
      case Some(i) =>
        RemoveAtMultiset(q, i);
        Step(SetQueue(st, g, RemoveAt(q, i)), Hit(q[i]))
      case None => Step(st, IndexError)
  }

  /** Move the track at `oldIndex` so that it ends up at `newIndex`. */
  function MoveTrack(st: QueueState, g: GuildId, oldIndex: int, newIndex: int): (r: Step<bool>)
    ensures var q := Queue(st, g);
            && (r.value <==> g in st.queues && 0 <= oldIndex < |q| && 0 <= newIndex < |q|)
            && (!r.value ==> r.state == st)
            && (r.value ==>
                  var q' := Queue(r.state, g);
                  && |q'| == |q|
                  && q'[newIndex] == q[oldIndex]
                  && RemoveAt(q', newIndex) == RemoveAt(q, oldIndex)
                  && multiset(q') == multiset(q))
    ensures OnlyQueueChanged(st, r.state, g)
  {
    if g !in st.queues then Step(st, false)
    else
      var q := st.queues[g];
      if oldIndex < 0 || oldIndex >= |q| || newIndex < 0 || newIndex >= |q| then Step(st, false)
      else
        var rest := RemoveAt(q, oldIndex);
        var q' := InsertAt(rest, newIndex, q[oldIndex]);
        RemoveAtMultiset(q, oldIndex);
        InsertAtMultiset(rest, newIndex, q[oldIndex]);
        RemoveInsertAt(rest, newIndex, q[oldIndex]);
        Step(SetQueue(st, g, q'), true)
  }

  /** Shuffle the queue. The order chosen is any permutation, as with `random.shuffle`. */
  method ShuffleQueue(st: QueueState, g: GuildId) returns (r: QueueState, shuffled: bool)
    ensures shuffled <==> |Queue(st, g)| >= 2
    ensures !shuffled ==> r == st
    ensures shuffled ==> multiset(Queue(r, g)) == multiset(Queue(st, g))
    ensures OnlyQueueChanged(st, r, g)
  {
    if g !in st.queues || |st.queues[g]| < 2 {
      return st, false;
    }
    var q := st.queues[g];
    var q' :| multiset(q') == multiset(q);
    return SetQueue(st, g, q'), true;
  }

  /** A copy of the queue, head first. */
  function GetQueueItems(st: QueueState, g: GuildId): (r: seq<Track>)
    ensures r == [] <==> GetNextTrack(st, g).value.None?
    ensures r != [] ==> GetNextTrack(st, g).value == Some(r[0]) && Queue(GetNextTrack(st, g).state, g) == r[1..]
  {
    Queue(st, g)
  }

  /** How many tracks `GetNextTrack` can still pop. */
  function GetQueueLength(st: QueueState, g: GuildId): (r: nat)
    ensures r == |GetQueueItems(st, g)|
    ensures r == 0 <==> GetNextTrack(st, g).value.None?
    ensures r > 0 ==> |Queue(GetNextTrack(st, g).state, g)| == r - 1
  {
    |Queue(st, g)|
  }

  /** Sum of the tracks' lengths, accumulated from the front. */
  function SumLengths(s: seq<Track>): int
  {
    if s == [] then 0 else SumLengths(s[..|s| - 1]) + s[|s| - 1].length
  }

  method GetTotalDuration(st: QueueState, g: GuildId) returns (total: int)
    ensures total == SumLengths(Queue(st, g))
  {
    total := 0;
    if g !in st.queues {
      return;
    }
    var q := st.queues[g];
    var i := 0;
    while i < |q|
      invariant 0 <= i <= |q|
      invariant total == SumLengths(q[..i])
    {
      assert q[..i + 1][..i] == q[..i];
      total := total + q[i].length;
      i := i + 1;
    }
    assert q[..|q|] == q;
  }

  /** Index of the first track satisfying `pred`, or -1. */
  method FindTrackIndex(st: QueueState, g: GuildId, pred: Track -> bool) returns (r: int)
    ensures -1 <= r < |Queue(st, g)|
    ensures r == -1 <==> forall i :: 0 <= i < |Queue(st, g)| ==> !pred(Queue(st, g)[i])
    ensures r >= 0 ==> pred(Queue(st, g)[r]) && forall i :: 0 <= i < r ==> !pred(Queue(st, g)[i])
  {
    if g !in st.queues {
      return -1;
    }
    var q := st.queues[g];
    var i := 0;
    while i < |q|
      invariant 0 <= i <= |q|
      invariant forall j :: 0 <= j < i ==> !pred(q[j])
    {
      if pred(q[i]) {
        return i;
      }
      i := i + 1;
    }
    return -1;
  }

  // ---------------------------------------------------------------- history

  /** Append `x` and keep only the newest `maxHistorySize` entries. */
  function Record<T>(h: seq<T>, x: T, max: nat): seq<T>
  {
    LastN(h + [x], max)
  }

  /** The trimming step exactly as the source writes it: `h[-max:]` once the
      list is too long. For `max == 0` the slice `h[-0:]` is the whole list. */
  function TrimAsWritten<T>(h: seq<T>, max: nat): seq<T>
  {
    if |h| > max then PyTail(h, max) else h
  }

  /** As written, a history bound of 0 bounds nothing: one append already exceeds it. */
  lemma TrimAsWrittenUnboundedAtZero()
    ensures |TrimAsWritten(["artist"], 0)| == 1 > 0
  {
  }

  /** For every positive bound the source's trimming is the intended one. */
  lemma TrimAsWrittenAgreesWhenPositive<T>(h: seq<T>, max: nat)
    requires max > 0
    ensures TrimAsWritten(h, max) == LastN(h, max)
  {
  }

  /** The trimming the model uses keeps exactly the newest `max` entries. */
  lemma {:induction false} RecordKeepsNewest<T>(h: seq<T>, x: T, max: nat)
    ensures |Record(h, x, max)| == Min(max, |h| + 1)
    ensures |Record(h, x, max)| <= max
    ensures max > 0 ==> Record(h, x, max)[|Record(h, x, max)| - 1] == x
    ensures Record(h, x, max) == (h + [x])[|h| + 1 - |Record(h, x, max)|..]
  {
    var r := Record(h, x, max);
    if max > 0 {
      assert r[|r| - 1] == (h + [x])[|h|];
    }
  }

  /** The song now playing; its author, when non-empty, joins the play history. */
  function SetCurrentSong(st: QueueState, g: GuildId, t: Track): (r: QueueState)
    ensures GetCurrentSong(r, g) == Some(t)
    ensures t.author != "" ==> History(r, g) == Record(History(st, g), t.author, st.maxHistorySize)
    ensures t.author == "" ==> r.playHistory == st.playHistory
    ensures r.queues == st.queues && r.replayEnabled == st.replayEnabled
    ensures r.recommendationHistory == st.recommendationHistory
    ensures r == st.(currentSongs := r.currentSongs, playHistory := r.playHistory)
    ensures Bounded(st) ==> Bounded(r)
    ensures OthersUnchanged(st, r, g)
  {
    var st1 := st.(currentSongs := st.currentSongs[g := t]);
    if t.author != "" then
      st1.(playHistory := st.playHistory[g := Record(History(st, g), t.author, st.maxHistorySize)])
    else st1
  }

  /** Append an author to the play history without touching the current song. */
  function AddToPlayHistory(st: QueueState, g: GuildId, author: string): (r: QueueState)
    ensures History(r, g) == Record(History(st, g), author, st.maxHistorySize)
    ensures r == st.(playHistory := r.playHistory)
    ensures Bounded(st) ==> Bounded(r)
    ensures OthersUnchanged(st, r, g)
  {
    st.(playHistory := st.playHistory[g := Record(History(st, g), author, st.maxHistorySize)])
  }

  /** For every positive bound the model's history is exactly what the
      source's append-then-trim produces. */
  lemma PlayHistoryAsWrittenWhenPositive(st: QueueState, g: GuildId, t: Track, author: string)
    requires st.maxHistorySize > 0
    ensures History(AddToPlayHistory(st, g, author), g) == TrimAsWritten(History(st, g) + [author], st.maxHistorySize)
    ensures t.author != "" ==>
              History(SetCurrentSong(st, g, t), g) == TrimAsWritten(History(st, g) + [t.author], st.maxHistorySize)
  {
    TrimAsWrittenAgreesWhenPositive(History(st, g) + [author], st.maxHistorySize);
    TrimAsWrittenAgreesWhenPositive(History(st, g) + [t.author], st.maxHistorySize);
  }

  /** The history, oldest first; `limit` is Python's `history[-limit:]`. */
  function GetPlayHistory(st: QueueState, g: GuildId, limit: Option<int>): (r: seq<string>)
    ensures var h := History(st, g);
            && (limit == None || limit == Some(0) ==> r == h)
            && (limit.Some? && limit.value > 0 ==>
                  |r| == Min(limit.value, |h|) && r == h[|h| - |r|..])
            && (limit.Some? && limit.value < 0 ==>
                  r == h[Min(-limit.value, |h|)..])
  {
    var h := History(st, g);
    match limit
    case None => h
    case Some(k) => PyTail(h, k)
  }

  function ClearCurrentSong(st: QueueState, g: GuildId): (r: QueueState)
    ensures GetCurrentSong(r, g) == None
    ensures r == st.(currentSongs := r.currentSongs)
    ensures OthersUnchanged(st, r, g)
  {
    st.(currentSongs := st.currentSongs - {g})
  }

  /** The song now playing; none for a guild that never set one. */
  function GetCurrentSong(st: QueueState, g: GuildId): (r: Option<Track>)
    ensures r.None? <==> g !in st.currentSongs
    ensures r.Some? ==> r.value == st.currentSongs[g]
  {
    if g in st.currentSongs then Some(st.currentSongs[g]) else None
  }

  // ---------------------------------------------------------------- recommendations

  /** Up to `limit` distinct authors drawn from the play history. Which ones
      is left open, as `random.sample` leaves it to chance. */
  method GetRecommendations(st: QueueState, g: GuildId, limit: int) returns (r: seq<string>)
    ensures History(st, g) == [] ==> r == []
    ensures |r| == Max(0, Min(limit, |Distinct(History(st, g))|))
    ensures NoDups(r)
    ensures forall a :: a in r ==> a in History(st, g)
    ensures limit >= |Distinct(History(st, g))| ==> Elems(r) == Elems(History(st, g))
  {
    if g !in st.playHistory || st.playHistory[g] == [] {
      return [];
    }
    var common := Distinct(st.playHistory[g]);
    var n := Min(limit, |common|);
    if n > 0 {
      var k: nat := n;
      PrefixIsSample(common, k);
      assert IsSample(common[..k], common, k);
      var picked: seq<string>;
      picked :| IsSample(picked, common, k);
      assert IsSample(picked, common, k);
      forall a | a in picked
        ensures a in st.playHistory[g]
      {
        assert a in common;
        assert a in Elems(common);
      }
      if k == |common| {
        FullSampleIsPopulation(picked, common);
      }
      r := picked;
    } else {
      r := [];
    }
  }

  /** Whether the (title, author) of `t` was already recommended in this guild. */
  function IsTrackInHistory(st: QueueState, g: GuildId, t: Track): (r: bool)
    ensures r <==> IdOf(t) in RecHistory(st, g)
  {
    g in st.recommendationHistory && IdOf(t) in st.recommendationHistory[g]
  }

  /** Remember `t` as recommended, in a ring of capacity `maxHistorySize`. */
  function AddToRecommendationHistory(st: QueueState, g: GuildId, t: Track): (r: QueueState)
    ensures RecHistory(r, g) == Record(RecHistory(st, g), IdOf(t), st.maxHistorySize)
    ensures IsTrackInHistory(r, g, t) <==> st.maxHistorySize > 0
    ensures r == st.(recommendationHistory := r.recommendationHistory)
    ensures Bounded(st) ==> Bounded(r)
    ensures OthersUnchanged(st, r, g)
  {
    var h := Record(RecHistory(st, g), IdOf(t), st.maxHistorySize);
    RecordKeepsNewest(RecHistory(st, g), IdOf(t), st.maxHistorySize);
    st.(recommendationHistory := st.recommendationHistory[g := h])
  }

  /** The recommendation switch; off for a guild that never set it. */
  function GetRecommendationStatus(st: QueueState, g: GuildId): (r: bool)
    ensures g !in st.recommendationEnabled ==> !r
    ensures g in st.recommendationEnabled ==> r == st.recommendationEnabled[g]
  {
    g in st.recommendationEnabled && st.recommendationEnabled[g]
  }

  /** Flip the recommendation flag (default off) and return its new value. */
  function ToggleRecommendations(st: QueueState, g: GuildId): (r: Step<bool>)
    ensures r.value == !GetRecommendationStatus(st, g)
    ensures GetRecommendationStatus(r.state, g) == r.value
    ensures r.state == st.(recommendationEnabled := r.state.recommendationEnabled)
    ensures OthersUnchanged(st, r.state, g)
  {
    var v := !GetRecommendationStatus(st, g);
    Step(st.(recommendationEnabled := st.recommendationEnabled[g := v]), v)
  }

  /** Remember where the guild's messages go. */
  function SetTextChannel(st: QueueState, g: GuildId, c: Channel): (r: QueueState)
    ensures GetTextChannel(r, g) == Some(c)
    ensures r == st.(textChannels := r.textChannels)
    ensures OthersUnchanged(st, r, g)
  {
    st.(textChannels := st.textChannels[g := c])
  }

  function GetTextChannel(st: QueueState, g: GuildId): (r: Option<Channel>)
    ensures r.None? <==> g !in st.textChannels
    ensures r.Some? ==> r.value == st.textChannels[g]
  {
    if g in st.textChannels then Some(st.textChannels[g]) else None
  }

  function SetReplayStatus(st: QueueState, g: GuildId, enabled: bool): (r: QueueState)
    ensures GetReplayStatus(r, g) == enabled
    ensures r == st.(replayEnabled := r.replayEnabled)
    ensures OthersUnchanged(st, r, g)
  {
    st.(replayEnabled := st.replayEnabled[g := enabled])
  }

  /** The replay switch; off for a guild that never set it. */
  function GetReplayStatus(st: QueueState, g: GuildId): (r: bool)
    ensures g !in st.replayEnabled ==> !r
    ensures g in st.replayEnabled ==> r == st.replayEnabled[g]
  {
    g in st.replayEnabled && st.replayEnabled[g]
  }

  /** Flip the replay flag (default off) and return its new value. */
  function ToggleReplay(st: QueueState, g: GuildId): (r: Step<bool>)
    ensures r.value == !GetReplayStatus(st, g)
    ensures GetReplayStatus(r.state, g) == r.value
    ensures r.state == st.(replayEnabled := r.state.replayEnabled)
    ensures OthersUnchanged(st, r.state, g)
  {
    var v := !GetReplayStatus(st, g);
    Step(SetReplayStatus(st, g, v), v)
  }

  // ---------------------------------------------------------------- teardown

  /** Forget everything about guild `g`, its lock last. */
  function CleanupGuild(st: QueueState, g: GuildId): (r: QueueState)
    ensures g !in r.queues && g !in r.currentSongs && g !in r.playHistory
    ensures g !in r.textChannels && g !in r.recommendationEnabled
    ensures g !in r.recommendationHistory && g !in r.replayEnabled
    ensures g !in r.locks
    ensures OthersUnchanged(st, r, g)
    ensures Bounded(st) ==> Bounded(r)
  {
    QueueState(
      st.queues - {g}, st.locks - {g}, st.currentSongs - {g}, st.playHistory - {g},
      st.textChannels - {g}, st.recommendationEnabled - {g},
      st.recommendationHistory - {g}, st.replayEnabled - {g}, st.maxHistorySize)
  }
}

=== FILE: playback.dfy ===
/** The playback controller of the music cog: the play / playnext command,
    the track-selection menu and its timeout, stop, skip, volume and the
    replay toggle, and the two player events (track start, track end) that
    drive auto-advance through the queue.

    The voice player is observed through a `Player` value and instructed
    through `Command`s; what the engine does with a play request (accepts it
    or raises) and what a search returns are oracle parameters. */
module Playback {
  import opened Common
  import opened Tracks
  import opened MusicQueue
  import Validators

  /** What the bot asks of the voice player, in order. */
  datatype Command = Play(track: Track) | StopTrack | Disconnect | SetVolume(level: int)

  /** The guild's voice client as the cog sees it. `current` is the engine's
      now-playing track, independent of the queue manager's current song. */
  datatype Player = Player(channel: nat, connected: bool, current: Option<Track>)

  /** The engine's answers: whether a play request for a track succeeds, and
      what a text search returns. */
  datatype Engine = Engine(playOk: Track -> bool, search: string -> Search)

  /** The new queue-manager state and the commands sent to the player. */
  datatype Outcome = Outcome(state: QueueState, commands: seq<Command>)

  function Plays(ts: seq<Track>): (r: seq<Command>)
    ensures |r| == |ts|
    ensures forall i :: 0 <= i < |ts| ==> r[i] == Play(ts[i])
  {
    seq(|ts|, i requires 0 <= i < |ts| => Play(ts[i]))
  }

  /** Reference for auto-advance: the position of the first queued track the
      engine accepts, if any. */
  function FirstPlayable(q: seq<Track>, playOk: Track -> bool): (r: Option<nat>)
    ensures r.Some? ==> r.value < |q| && playOk(q[r.value])
    ensures r.Some? ==> forall j :: 0 <= j < r.value ==> !playOk(q[j])
    ensures r.None? ==> forall j :: 0 <= j < |q| ==> !playOk(q[j])
    decreases |q|
  {
    if q == [] then None
    else if playOk(q[0]) then Some(0)
    else match FirstPlayable(q[1..], playOk)
      case None => None
      case Some(i) => Some(i + 1)
  }

  /** The effect auto-advance must have on a guild whose state was `st`: a
      disconnected player only loses its queue; otherwise every track before
      the first accepted one was tried and dropped, the accepted one is now
      current and recorded in the history, and when none is accepted the
      queue is exhausted and the player disconnected. The recommendation
      state is never touched. */
  ghost predicate Advanced(st: QueueState, g: GuildId, connected: bool, playOk: Track -> bool, r: Outcome)
  {
    var q := Queue(st, g);
    && r.state.recommendationHistory == st.recommendationHistory
    && r.state.recommendationEnabled == st.recommendationEnabled
    && if !connected then
      && r.commands == [] && Queue(r.state, g) == []
      && r.state.currentSongs == st.currentSongs
      && r.state.playHistory == st.playHistory
    else match FirstPlayable(q, playOk)
      case Some(i) =>
        && r.commands == Plays(q[..i + 1])
        && Queue(r.state, g) == q[i + 1..]
        && GetCurrentSong(r.state, g) == Some(q[i])
        && History(r.state, g) ==
             (if q[i].author != "" then Record(History(st, g), q[i].author, st.maxHistorySize)
              else History(st, g))
      case None =>
        && r.commands == Plays(q) + [Disconnect]
        && Queue(r.state, g) == []
        && r.state.currentSongs == st.currentSongs
        && r.state.playHistory == st.playHistory
  }

  /** Play the next queued track; a track the engine rejects is dropped and
      the one after it tried; an empty queue ends playback. */
  function PlayNext(st: QueueState, g: GuildId, connected: bool, playOk: Track -> bool): (r: Outcome)
    ensures Advanced(st, g, connected, playOk, r)
    ensures r.state.replayEnabled == st.replayEnabled && r.state.textChannels == st.textChannels
    ensures OthersUnchanged(st, r.state, g)
    ensures Bounded(st) ==> Bounded(r.state)
    decreases |Queue(st, g)|
  {
    if !connected then Outcome(WithLock(ClearQueue(st, g), g), [])
    else
      var p := GetNextTrack(WithLock(st, g), g);
      match p.value
      case None => Outcome(p.state, [Disconnect])
      case Some(t) =>
        if playOk(t) then Outcome(SetCurrentSong(p.state, g, t), [Play(t)])
        else
          var rest := PlayNext(p.state, g, connected, playOk);
          AdvancedSkipsRejected(st, p.state, g, playOk, t, rest);
          Outcome(rest.state, [Play(t)] + rest.commands)
  }

  /** One rejected track in front of a queue adds one play attempt in front
      of what auto-advance does with the rest. */
  lemma AdvancedSkipsRejected(st: QueueState, s1: QueueState, g: GuildId, playOk: Track -> bool,
                              t: Track, rest: Outcome)
    requires Queue(st, g) == [t] + Queue(s1, g) && !playOk(t)
    requires s1.currentSongs == st.currentSongs && s1.playHistory == st.playHistory
    requires s1.maxHistorySize == st.maxHistorySize
    requires s1.recommendationHistory == st.recommendationHistory
    requires s1.recommendationEnabled == st.recommendationEnabled
    requires Advanced(s1, g, true, playOk, rest)
    ensures Advanced(st, g, true, playOk, Outcome(rest.state, [Play(t)] + rest.commands))
  {
    var q := Queue(st, g);
    var q' := Queue(s1, g);
    assert q[1..] == q';
    match FirstPlayable(q', playOk)
    case Some(i) =>
      assert FirstPlayable(q, playOk) == Some(i + 1);
      ConsPrefixPlays(q, t, q', i + 1);
    case None =>
      assert FirstPlayable(q, playOk) == None;
      assert Plays(q) == [Play(t)] + Plays(q');
  }

  lemma ConsPrefixPlays(q: seq<Track>, t: Track, q': seq<Track>, n: nat)
    requires q == [t] + q' && n <= |q'|
    ensures Plays(q[..n + 1]) == [Play(t)] + Plays(q'[..n])
    ensures q[n + 1..] == q'[n..]
  {
    assert q[..n + 1] == [t] + q'[..n];
  }

  /** Auto-advance tries the queued tracks in order, each at most once: at
      most one command more than the queue is long (the final disconnect),
      and the i-th play request is for the i-th queued track. */
  lemma PlayNextAttemptsBounded(st: QueueState, g: GuildId, connected: bool, playOk: Track -> bool)
    ensures |PlayNext(st, g, connected, playOk).commands| <= |Queue(st, g)| + 1
    ensures var cs := PlayNext(st, g, connected, playOk).commands;
            forall i :: 0 <= i < |cs| && cs[i].Play? ==> i < |Queue(st, g)| && cs[i].track == Queue(st, g)[i]
  {
    var cs := PlayNext(st, g, connected, playOk).commands;
    var q := Queue(st, g);
    if connected {
      match FirstPlayable(q, playOk)
      case Some(i) =>
        assert cs == Plays(q[..i + 1]);
        PlaysArePrefix(q, cs, i + 1);
      case None =>
        assert cs == Plays(q) + [Disconnect];
        assert q[..|q|] == q;
        PlaysArePrefix(q, cs[..|q|], |q|);
        assert cs[|q|] == Disconnect;
    } else {
      assert cs == [];
    }
  }

  lemma PlaysArePrefix(q: seq<Track>, cs: seq<Command>, n: nat)
    requires n <= |q| && cs == Plays(q[..n])
    ensures |cs| == n
    ensures forall i :: 0 <= i < |cs| ==> cs[i] == Play(q[i])
  {
  }

  /** The track-start event: the started track becomes the current song. */
  function OnTrackStart(st: QueueState, g: GuildId, t: Track): QueueState
  {
    SetCurrentSong(st, g, t)
  }

  /** The query used to find the ended track again for a replay. */
  function ReplayQuery(t: Track): string
  {
    t.title + " " + t.author
  }

  /** The track-end event. With replay on and a current song, the song is
      searched again and the first hit played; if the search raises, finds
      nothing or the play request raises, the queue advances as usual. */
  function OnTrackEnd(st: QueueState, g: GuildId, connected: bool, eng: Engine): (r: Outcome)
    ensures var cur := GetCurrentSong(st, g);
            var replaying := GetReplayStatus(st, g) && cur.Some? &&
                             eng.search(ReplayQuery(cur.value)).Results? &&
                             eng.search(ReplayQuery(cur.value)).tracks != [];
            && (replaying && eng.playOk(eng.search(ReplayQuery(cur.value)).tracks[0]) ==>
                  var t := eng.search(ReplayQuery(cur.value)).tracks[0];
                  && r.commands == [Play(t)]
                  && GetCurrentSong(r.state, g) == Some(t)
                  && History(r.state, g) == History(SetCurrentSong(st, g, t), g)
                  && Queue(r.state, g) == Queue(st, g))
            && (replaying && !eng.playOk(eng.search(ReplayQuery(cur.value)).tracks[0]) ==>
                  var t := eng.search(ReplayQuery(cur.value)).tracks[0];
                  && |r.commands| >= 1 && r.commands[0] == Play(t)
                  && Advanced(ClearCurrentSong(st, g), g, connected, eng.playOk, Outcome(r.state, r.commands[1..])))
            && (!replaying ==> Advanced(ClearCurrentSong(st, g), g, connected, eng.playOk, r))
    ensures GetReplayStatus(r.state, g) == GetReplayStatus(st, g)
    ensures OthersUnchanged(st, r.state, g)
    ensures Bounded(st) ==> Bounded(r.state)
  {
    var cur := GetCurrentSong(st, g);
    var advance := PlayNext(ClearCurrentSong(st, g), g, connected, eng.playOk);
    if GetReplayStatus(st, g) && cur.Some? then
      match eng.search(ReplayQuery(cur.value))
      case SearchRaised => advance
      case Results(rs) =>
        if rs == [] then advance
        else if eng.playOk(rs[0]) then Outcome(SetCurrentSong(st, g, rs[0]), [Play(rs[0])])
        else
          assert ([Play(rs[0])] + advance.commands)[1..] == advance.commands;
          Outcome(advance.state, [Play(rs[0])] + advance.commands)
    else advance
  }

  // ------------------------------------------------------------- commands

  /** The reply to a skip request. */
  datatype SkipReply = SkipNotPlaying | NothingPlaying | Skipped(title: string, replayStillOn: bool) | SkipRaised

  /** Skip: stop the engine's current track and let the track-end event decide
      what follows. The queue manager's state is not touched; in particular
      nothing marks the stop as a skip. */
  function Skip(st: QueueState, g: GuildId, voice: Option<Player>): (r: (seq<Command>, SkipReply))
    ensures r.0 == [StopTrack] <==> voice.Some? && voice.value.current.Some?
    ensures r.0 == [] <==> !(voice.Some? && voice.value.current.Some?)
    ensures voice.None? ==> r.1 == SkipNotPlaying
    ensures voice.Some? && voice.value.current.None? ==> r.1 == NothingPlaying
    ensures voice.Some? && voice.value.current.Some? && GetCurrentSong(st, g).Some? ==>
              r.1 == Skipped(GetCurrentSong(st, g).value.title, GetReplayStatus(st, g))
    ensures r.1.Skipped? ==>
              GetCurrentSong(st, g).Some? && r.1.title == GetCurrentSong(st, g).value.title &&
              r.1.replayStillOn == GetReplayStatus(st, g)
    ensures r.1 == SkipRaised <==> voice.Some? && voice.value.current.Some? && GetCurrentSong(st, g).None?
  {
    match voice
    case None => ([], SkipNotPlaying)
    case Some(p) =>
      if p.current.None? then ([], NothingPlaying)
      else match GetCurrentSong(st, g)
        case None => ([StopTrack], SkipRaised)
        case Some(c) => ([StopTrack], Skipped(c.title, GetReplayStatus(st, g)))
  }

  /** Stop: with a connected player, empty the queue, forget the current song,
      switch replay off, stop and disconnect. */
  function Stop(st: QueueState, g: GuildId, voice: Option<Player>): (r: Outcome)
    ensures voice.Some? && voice.value.connected ==>
              && r.commands == [StopTrack, Disconnect]
              && Queue(r.state, g) == [] && GetCurrentSong(r.state, g) == None
              && !GetReplayStatus(r.state, g)
              && r.state.playHistory == st.playHistory
              && r.state.recommendationEnabled == st.recommendationEnabled
    ensures !(voice.Some? && voice.value.connected) ==> r == Outcome(st, [])
    ensures OthersUnchanged(st, r.state, g)
  {
    match voice
    case Some(p) =>
      if p.connected then
        var s1 := WithLock(ClearQueue(st, g), g);
        Outcome(SetReplayStatus(ClearCurrentSong(s1, g), g, false), [StopTrack, Disconnect])
      else Outcome(st, [])
    case None => Outcome(st, [])
  }

  /** Volume: accepted only in 0..1000 and only with a player. */
  function Volume(voice: Option<Player>, level: int): (r: seq<Command>)
    ensures r != [] <==> voice.Some? && 0 <= level <= 1000
    ensures r != [] ==> r == [SetVolume(level)]
  {
    if voice.Some? && 0 <= level <= 1000 then [SetVolume(level)] else []
  }

  /** The replay command: toggles the guild's flag, only while the engine is
      playing something. Returns the new flag when it toggled. */
  function ReplayCommand(st: QueueState, g: GuildId, voice: Option<Player>): (r: Step<Option<bool>>)
    ensures voice.Some? && voice.value.current.Some? ==>
              r.value == Some(!GetReplayStatus(st, g)) && GetReplayStatus(r.state, g) == !GetReplayStatus(st, g)
    ensures !(voice.Some? && voice.value.current.Some?) ==> r == Step(st, None)
    ensures OthersUnchanged(st, r.state, g)
  {
    if voice.Some? && voice.value.current.Some? then
      var t := ToggleReplay(st, g);
      Step(t.state, Some(t.value))
    else Step(st, None)
  }

  // -------------------------------------------------------- play command

  /** What a track fetch returned: it raised, a list of tracks, or a playlist. */
  datatype Fetch = FetchRaised | TrackList(tracks: seq<Track>) | PlaylistResult(name: string, items: seq<Track>)

  /** The reply to a play request. `Choose` carries the options of the
      selection menu (the first ten results). */
  datatype PlayReply =
    | NotInVoice | OtherChannel | ConnectFailed | FetchFailed | NoResults
    | PlaylistAdded(count: nat) | TrackAdded(track: Track) | Choose(options: seq<Track>)

  /** The user and the bot as a play request finds them. */
  datatype Request = Request(
    userChannel: Option<nat>,
    voice: Option<Player>,
    textChannel: Channel,
    query: string,
    toFront: bool)

  datatype PlayResult = PlayResult(state: QueueState, commands: seq<Command>, reply: PlayReply) {
    function outcome(): Outcome { Outcome(state, commands) }
  }

  /** The player the request goes on with: the existing client, or a fresh
      connection to the user's channel when there is none. */
  function PlayerFor(req: Request, connectOk: bool): Option<Player>
    requires req.userChannel.Some?
  {
    match req.voice
    case Some(p) => Some(p)
    case None => if connectOk then Some(Player(req.userChannel.value, true, None)) else None
  }

  /** After adding to the queue: start playback when the guild has no current song. */
  function StartIfIdle(st: QueueState, g: GuildId, player: Player, playOk: Track -> bool): (r: Outcome)
    ensures g in st.currentSongs ==> r == Outcome(st, [])
    ensures g !in st.currentSongs ==> Advanced(st, g, player.connected, playOk, r)
    ensures r.state.textChannels == st.textChannels
    ensures OthersUnchanged(st, r.state, g)
  {
    if g in st.currentSongs then Outcome(st, []) else PlayNext(st, g, player.connected, playOk)
  }

  /** What the command does with the fetched results once a player is
      available: report a failed or empty fetch, queue a playlist or a single
      track (a link's first result, or the only result) and start playback
      when idle, or offer a menu of the first ten results. */
  function AddResults(st: QueueState, g: GuildId, link: bool, f: Fetch, toFront: bool,
                      player: Player, playOk: Track -> bool): (r: PlayResult)
    ensures f.FetchRaised? ==> r == PlayResult(st, [], FetchFailed)
    ensures f.TrackList? && f.tracks == [] ==> r == PlayResult(st, [], NoResults)
    ensures f.TrackList? && |f.tracks| >= 2 && !link ==>
              r == PlayResult(st, [], Choose(f.tracks[..Min(10, |f.tracks|)]))
    ensures f.TrackList? && f.tracks != [] && (link || |f.tracks| == 1) ==>
              var t := f.tracks[0];
              && r.reply == TrackAdded(t)
              && (g in st.currentSongs ==>
                    r.commands == [] && Queue(r.state, g) == (if toFront then [t] + Queue(st, g) else Queue(st, g) + [t]))
              && (g !in st.currentSongs ==> Advanced(AddTrack(st, g, t, toFront), g, player.connected, playOk, r.outcome()))
    ensures f.PlaylistResult? ==>
              && r.reply == PlaylistAdded(|f.items|)
              && (g in st.currentSongs ==>
                    r.commands == [] && Queue(r.state, g) == (if toFront then f.items + Queue(st, g) else Queue(st, g) + f.items))
              && (g !in st.currentSongs ==>
                    Advanced(AddPlaylist(st, g, f.items, toFront), g, player.connected, playOk, r.outcome()))
    ensures r.state.textChannels == st.textChannels
    ensures OthersUnchanged(st, r.state, g)
  {
    match f
    case FetchRaised => PlayResult(st, [], FetchFailed)
    case TrackList(ts) =>
      if ts == [] then PlayResult(st, [], NoResults)
      else if link || |ts| == 1 then
        var o := StartIfIdle(WithLock(AddTrack(st, g, ts[0], toFront), g), g, player, playOk);
        PlayResult(o.state, o.commands, TrackAdded(ts[0]))
      else PlayResult(st, [], Choose(ts[..Min(10, |ts|)]))
    case PlaylistResult(_, items) =>
      var o := StartIfIdle(WithLock(AddPlaylist(st, g, items, toFront), g), g, player, playOk);
      PlayResult(o.state, o.commands, PlaylistAdded(|items|))
  }

  /** The play / playnext command: a user outside voice, or in another channel
      than the bot, is turned away; otherwise the text channel is remembered,
      a player found or connected, and the query fetched (as a link, or as a
      YouTube search) and handed to `AddResults`. */
  function HandlePlay(st: QueueState, g: GuildId, req: Request, connectOk: bool,
                      fetch: (string, bool) -> Fetch, playOk: Track -> bool): (r: PlayResult)
    ensures req.userChannel.None? ==> r == PlayResult(st, [], NotInVoice)
    ensures req.userChannel.Some? && req.voice.Some? && req.voice.value.channel != req.userChannel.value ==>
              r == PlayResult(st, [], OtherChannel)
    ensures r.reply != NotInVoice && r.reply != OtherChannel ==> GetTextChannel(r.state, g) == Some(req.textChannel)
    ensures r.reply == ConnectFailed <==> req.userChannel.Some? && req.voice.None? && !connectOk
    ensures r.reply == ConnectFailed ==> r.commands == [] && Queue(r.state, g) == Queue(st, g)
    ensures req.userChannel.Some? && !(req.voice.Some? && req.voice.value.channel != req.userChannel.value) &&
            PlayerFor(req, connectOk).Some? ==>
              var link := Validators.IsYoutubeUrl(req.query);
              r == AddResults(SetTextChannel(st, g, req.textChannel), g, link, fetch(req.query, !link),
                              req.toFront, PlayerFor(req, connectOk).value, playOk)
    ensures OthersUnchanged(st, r.state, g)
  {
    if req.userChannel.None? then PlayResult(st, [], NotInVoice)
    else if req.voice.Some? && req.voice.value.channel != req.userChannel.value then
      PlayResult(st, [], OtherChannel)
    else
      var st1 := SetTextChannel(st, g, req.textChannel);
      match PlayerFor(req, connectOk)
      case None => PlayResult(st1, [], ConnectFailed)
      case Some(player) =>
        var link := Validators.IsYoutubeUrl(req.query);
        AddResults(st1, g, link, fetch(req.query, !link), req.toFront, player, playOk)
  }

  /** The selection menu's callback: queue the chosen option and start
      playback when idle. The menu only offers indices of its options. */
  function SelectTrack(st: QueueState, g: GuildId, options: seq<Track>, index: int, toFront: bool,
                       player: Player, playOk: Track -> bool): (r: Outcome)
    requires 0 <= index < |options|
    ensures g in st.currentSongs ==>
              r.commands == [] &&
              Queue(r.state, g) == (if toFront then [options[index]] + Queue(st, g) else Queue(st, g) + [options[index]])
    ensures g !in st.currentSongs ==>
              Advanced(AddTrack(st, g, options[index], toFront), g, player.connected, playOk, r)
    ensures OthersUnchanged(st, r.state, g)
  {
    var s1 := WithLock(AddTrack(st, g, options[index], toFront), g);
    StartIfIdle(s1, g, player, playOk)
  }

  /** The selection menu timing out: a connected, idle player with an empty
      queue is disconnected. */
  function SelectionTimeout(st: QueueState, g: GuildId, player: Player): (r: Outcome)
    ensures r.commands == [Disconnect] <==> player.connected && player.current.None? && Queue(st, g) == []
    ensures r.commands == [] <==> !(player.connected && player.current.None? && Queue(st, g) == [])
    ensures Queue(r.state, g) == Queue(st, g) && r.state.currentSongs == st.currentSongs
  {
    if player.connected && player.current.None? then
      var s1 := WithLock(st, g);
      if Queue(s1, g) == [] then Outcome(s1, [Disconnect]) else Outcome(s1, [])
    else Outcome(st, [])
  }

  // ----------------------------------------------------------- properties

  /** A skip under replay mode does not move on: the event that follows the
      stop finds replay on and the current song set, and replays it. */
  lemma SkipUnderReplayReplays(st: QueueState, g: GuildId, voice: Player, connected: bool, eng: Engine)
    requires GetReplayStatus(st, g) && GetCurrentSong(st, g).Some? && voice.current.Some?
    requires var s := eng.search(ReplayQuery(GetCurrentSong(st, g).value));
             s.Results? && s.tracks != [] && eng.playOk(s.tracks[0])
    ensures Skip(st, g, Some(voice)).0 == [StopTrack]
    ensures var t := eng.search(ReplayQuery(GetCurrentSong(st, g).value)).tracks[0];
            OnTrackEnd(st, g, connected, eng).commands == [Play(t)] &&
            Queue(OnTrackEnd(st, g, connected, eng).state, g) == Queue(st, g)
  {
  }

  /** After stop, the track-end event of the stopped track does nothing to
      the player: replay is off, no song is current, and the player is gone. */
  lemma StopThenTrackEndIsQuiet(st: QueueState, g: GuildId, voice: Player, eng: Engine)
    requires voice.connected
    ensures var s := Stop(st, g, Some(voice)).state;
            OnTrackEnd(s, g, false, eng).commands == [] &&
            Queue(OnTrackEnd(s, g, false, eng).state, g) == []
  {
  }

  /** Starting a track through the queue and then receiving its start event
      records its author twice in the play history. */
  lemma PlayThenStartRecordsTwice(st: QueueState, g: GuildId, playOk: Track -> bool)
    requires Queue(st, g) != [] && playOk(Queue(st, g)[0]) && Queue(st, g)[0].author != ""
    requires st.maxHistorySize >= 2
    ensures var t := Queue(st, g)[0];
            var s := OnTrackStart(PlayNext(st, g, true, playOk).state, g, t);
            var h := History(s, g);
            |h| >= 2 && h[|h| - 2..] == [t.author, t.author]
  {
    var t := Queue(st, g)[0];
    var a := t.author;
    var m := st.maxHistorySize;
    var s1 := PlayNext(st, g, true, playOk).state;
    assert FirstPlayable(Queue(st, g), playOk) == Some(0);
    var h1 := History(s1, g);
    assert h1 == Record(History(st, g), a, m);
    RecordKeepsNewest(History(st, g), a, m);
    assert s1.maxHistorySize == m;
    var h := History(OnTrackStart(s1, g, t), g);
    assert h == Record(h1, a, m);
    TwiceRecordedEndsTwice(History(st, g), a, m);
  }

  lemma TwiceRecordedEndsTwice<T>(h0: seq<T>, a: T, m: nat)
    requires m >= 2
    ensures var h := Record(Record(h0, a, m), a, m);
            |h| >= 2 && h[|h| - 2..] == [a, a]
  {
    var h1 := Record(h0, a, m);
    RecordKeepsNewest(h0, a, m);
    RecordKeepsNewest(h1, a, m);
    var h := Record(h1, a, m);
    assert h[|h| - 1] == a;
    assert h[|h| - 2] == (h1 + [a])[|h1| - 1] == h1[|h1| - 1] == a;
  }

  /** A play request for a single found track, on an idle guild with an empty
      queue and a connected player, plays exactly that track. */
  lemma PlayOnIdleGuildStartsTrack(st: QueueState, g: GuildId, req: Request, fetch: (string, bool) -> Fetch,
                                   playOk: Track -> bool, t: Track)
    requires req.userChannel.Some? && req.voice.Some? && req.voice.value.channel == req.userChannel.value
    requires req.voice.value.connected
    requires fetch(req.query, !Validators.IsYoutubeUrl(req.query)) == TrackList([t])
    requires g !in st.currentSongs && Queue(st, g) == [] && playOk(t)
    ensures var r := HandlePlay(st, g, req, true, fetch, playOk);
            r.reply == TrackAdded(t) && r.commands == [Play(t)] &&
            GetCurrentSong(r.state, g) == Some(t) && Queue(r.state, g) == []
  {
    var st1 := SetTextChannel(st, g, req.textChannel);
    var s2 := WithLock(AddTrack(st1, g, t, req.toFront), g);
    assert Queue(s2, g) == [t];
    assert FirstPlayable([t], playOk) == Some(0);
    assert [t][..1] == [t];
  }

  /** A play request on a guild that is already playing only queues: the
      found track or playlist joins the queue at the requested end, no engine
      command is issued and the current song stays. */
  lemma PlayOnBusyGuildOnlyQueues(st: QueueState, g: GuildId, req: Request, connectOk: bool,
                                  fetch: (string, bool) -> Fetch, playOk: Track -> bool)
    requires req.userChannel.Some? && !(req.voice.Some? && req.voice.value.channel != req.userChannel.value)
    requires PlayerFor(req, connectOk).Some?
    requires g in st.currentSongs
    ensures var link := Validators.IsYoutubeUrl(req.query);
            var f := fetch(req.query, !link);
            var r := HandlePlay(st, g, req, connectOk, fetch, playOk);
            && GetCurrentSong(r.state, g) == GetCurrentSong(st, g)
            && (f.TrackList? && f.tracks != [] && (link || |f.tracks| == 1) ==>
                  r.reply == TrackAdded(f.tracks[0]) && r.commands == [] &&
                  Queue(r.state, g) == (if req.toFront then [f.tracks[0]] + Queue(st, g) else Queue(st, g) + [f.tracks[0]]))
            && (f.PlaylistResult? ==>
                  r.reply == PlaylistAdded(|f.items|) && r.commands == [] &&
                  Queue(r.state, g) == (if req.toFront then f.items + Queue(st, g) else Queue(st, g) + f.items))
  {
    var link := Validators.IsYoutubeUrl(req.query);
    var f := fetch(req.query, !link);
    var st1 := SetTextChannel(st, g, req.textChannel);
    assert Queue(st1, g) == Queue(st, g) && g in st1.currentSongs;
    assert st1.currentSongs == st.currentSongs;
    var r := AddResults(st1, g, link, f, req.toFront, PlayerFor(req, connectOk).value, playOk);
    assert r.state.currentSongs == st1.currentSongs by {
      match f
      case FetchRaised =>
      case TrackList(ts) =>
      case PlaylistResult(_, items) =>
    }
  }
}

=== FILE: queue_properties.dfy ===
/** Properties that relate several queue-manager operations: FIFO order of
    single and bulk inserts, agreement of the read-only views, duration under
    reordering, history eviction, flag toggling and guild teardown. */
module QueueProperties {
  import opened Common
  import opened Tracks
  import opened MusicQueue

  /** Pop the queue `n` times and collect what came out, in order. */
  function Drain(st: QueueState, g: GuildId, n: nat): seq<Track>
    decreases n
  {
    if n == 0 then []
    else
      var p := GetNextTrack(st, g);
      match p.value
      case None => []
      case Some(t) => [t] + Drain(p.state, g, n - 1)
  }

  /** Popping as many times as the queue is long yields the queue itself, head first. */
  lemma {:induction false} DrainYieldsQueue(st: QueueState, g: GuildId)
    ensures Drain(st, g, |Queue(st, g)|) == Queue(st, g)
    decreases |Queue(st, g)|
  {
    if Queue(st, g) != [] {
      var p := GetNextTrack(st, g);
      DrainYieldsQueue(p.state, g);
    }
  }

  /** A push followed by a pop: a track pushed to the front, or onto an empty
      queue, is popped straight back and leaves the queue as it was; a track
      pushed to the back of a non-empty queue waits behind the rest. */
  lemma PushThenPop(st: QueueState, g: GuildId, t: Track, toFront: bool)
    ensures var p := GetNextTrack(AddTrack(st, g, t, toFront), g);
            toFront || Queue(st, g) == [] ==> p.value == Some(t) && Queue(p.state, g) == Queue(st, g)
    ensures var p := GetNextTrack(AddTrack(st, g, t, toFront), g);
            !toFront && Queue(st, g) != [] ==>
              p.value == Some(Queue(st, g)[0]) && Queue(p.state, g) == Queue(st, g)[1..] + [t]
  {
    var q := Queue(st, g);
    var p := GetNextTrack(AddTrack(st, g, t, toFront), g);
    if toFront {
      assert ([t] + q)[1..] == q;
    } else if q != [] {
      assert (q + [t])[1..] == q[1..] + [t];
    }
  }

  /** A bulk insert into an empty queue, at the back or at the front, comes out
      in the order it was given. */
  lemma {:induction false} PlaylistComesOutInOrder(st: QueueState, g: GuildId, tracks: seq<Track>, toFront: bool)
    requires Queue(st, g) == []
    ensures Drain(AddPlaylist(st, g, tracks, toFront), g, |tracks|) == tracks
  {
    var r := AddPlaylist(st, g, tracks, toFront);
    assert Queue(r, g) == tracks;
    DrainYieldsQueue(r, g);
  }

  /** The snapshot, the length and positional peeks are three views of one queue;
      peeking at 0 shows what popping would return. */
  lemma SnapshotAgreesWithPeek(st: QueueState, g: GuildId)
    ensures GetQueueLength(st, g) == |GetQueueItems(st, g)|
    ensures forall i :: 0 <= i < GetQueueLength(st, g) ==> PeekQueue(st, g, i) == Hit(GetQueueItems(st, g)[i])
    ensures forall i :: i >= GetQueueLength(st, g) ==> PeekQueue(st, g, i) == Miss
    ensures GetNextTrack(st, g).value.Some? <==> PeekQueue(st, g, 0).Hit?
    ensures PeekQueue(st, g, 0).Hit? ==> GetNextTrack(st, g).value == Some(PeekQueue(st, g, 0).value)
  {
  }

  lemma {:induction false} SumLengthsAppend(a: seq<Track>, b: seq<Track>)
    ensures SumLengths(a + b) == SumLengths(a) + SumLengths(b)
    decreases |b|
  {
    if b == [] {
      assert a + b == a;
    } else {
      var n := |b| - 1;
      var ab := a + b;
      assert ab != [];
      assert ab[..|ab| - 1] == a + b[..n];
      assert ab[|ab| - 1] == b[n];
      SumLengthsAppend(a, b[..n]);
    }
  }

  lemma SumLengthsRemoveAt(s: seq<Track>, i: nat)
    requires i < |s|
    ensures SumLengths(s) == SumLengths(RemoveAt(s, i)) + s[i].length
  {
    var pre, x, post := s[..i], [s[i]], s[i + 1..];
    assert s == pre + (x + post);
    assert RemoveAt(s, i) == pre + post;
    SumLengthsAppend(pre, x + post);
    SumLengthsAppend(x, post);
    SumLengthsAppend(pre, post);
    assert x[..0] == [];
  }

  /** Reordering a queue never changes its total duration. */
  lemma {:induction false} DurationPermutationInvariant(a: seq<Track>, b: seq<Track>)
    requires multiset(a) == multiset(b)
    ensures SumLengths(a) == SumLengths(b)
    decreases |a|
  {
    if a != [] {
      var n := |a| - 1;
      var x := a[n];
      assert x in multiset(b);
      var j :| 0 <= j < |b| && b[j] == x;
      RemoveAtMultiset(b, j);
      assert a == a[..n] + [x];
      assert multiset(a) == multiset(a[..n]) + multiset{x};
      var ma, mb := multiset(a[..n]), multiset(RemoveAt(b, j));
      assert ma + multiset{x} == mb + multiset{x};
      assert ma == (ma + multiset{x}) - multiset{x};
      assert mb == (mb + multiset{x}) - multiset{x};
      DurationPermutationInvariant(a[..n], RemoveAt(b, j));
      SumLengthsRemoveAt(b, j);
    }
  }

  /** A successful move keeps the total duration of the queue. */
  lemma MoveKeepsDuration(st: QueueState, g: GuildId, oldIndex: int, newIndex: int)
    ensures SumLengths(Queue(MoveTrack(st, g, oldIndex, newIndex).state, g)) == SumLengths(Queue(st, g))
  {
    var r := MoveTrack(st, g, oldIndex, newIndex);
    if r.value {
      DurationPermutationInvariant(Queue(r.state, g), Queue(st, g));
    }
  }

  /** Record several authors one after another. */
  function RecordAll(st: QueueState, g: GuildId, authors: seq<string>): QueueState
    decreases |authors|
  {
    if authors == [] then st
    else RecordAll(AddToPlayHistory(st, g, authors[0]), g, authors[1..])
  }

  /** The last `n` of a suffix that is at least that long are the last `n` of the whole. */
  lemma LastNOfSuffix<T>(s: seq<T>, k: nat, n: nat)
    requires k <= |s|
    requires Min(n, |s|) <= |s| - k
    ensures LastN(s[k..], n) == LastN(s, n)
  {
  }

  /** Recording authors one at a time leaves exactly the newest `maxHistorySize`
      of them all, the oldest evicted first. */
  lemma {:induction false} RecordAllKeepsNewest(st: QueueState, g: GuildId, authors: seq<string>)
    requires |History(st, g)| <= st.maxHistorySize
    ensures History(RecordAll(st, g, authors), g) == LastN(History(st, g) + authors, st.maxHistorySize)
    ensures RecordAll(st, g, authors).maxHistorySize == st.maxHistorySize
    decreases |authors|
  {
    var m := st.maxHistorySize;
    var h := History(st, g);
    if authors == [] {
      assert h + authors == h;
    } else {
      var a0, rest := authors[0], authors[1..];
      var st1 := AddToPlayHistory(st, g, a0);
      assert History(st1, g) == LastN(h + [a0], m);
      assert st1.maxHistorySize == m;
      RecordAllKeepsNewest(st1, g, rest);
      assert RecordAll(st, g, authors) == RecordAll(st1, g, rest);
      LastNAppendAll(h + [a0], rest, m);
      assert h + [a0] + rest == h + authors;
    }
  }

  /** Trimming before appending more is the same as trimming once at the end. */
  lemma LastNAppendAll<T>(h: seq<T>, rest: seq<T>, n: nat)
    ensures LastN(LastN(h, n) + rest, n) == LastN(h + rest, n)
  {
    var l := LastN(h, n);
    var k := |h| - |l|;
    assert l + rest == (h + rest)[k..];
    LastNOfSuffix(h + rest, k, n);
  }

  /** Appending to a full history evicts exactly its oldest entry; the
      others keep their order and the new author comes last. */
  lemma OverflowEvictsOldest(st: QueueState, g: GuildId, a: string)
    requires |History(st, g)| == st.maxHistorySize > 0
    ensures History(AddToPlayHistory(st, g, a), g) == History(st, g)[1..] + [a]
  {
    var h := History(st, g);
    RecordKeepsNewest(h, a, st.maxHistorySize);
    assert (h + [a])[1..] == h[1..] + [a];
  }

  /** Starting from an empty history, pushing `maxHistorySize + 5` authors
      keeps exactly `maxHistorySize` of them and drops the first five. */
  lemma OverflowDropsFirstFive(st: QueueState, g: GuildId, authors: seq<string>)
    requires History(st, g) == []
    requires |authors| == st.maxHistorySize + 5
    ensures History(RecordAll(st, g, authors), g) == authors[5..]
  {
    RecordAllKeepsNewest(st, g, authors);
    assert History(st, g) + authors == authors;
  }

  /** Start every track of `ts` in turn, from the first. */
  function StartAll(st: QueueState, g: GuildId, ts: seq<Track>): QueueState
    decreases |ts|
  {
    if ts == [] then st
    else StartAll(SetCurrentSong(st, g, ts[0]), g, ts[1..])
  }

  /** The non-empty authors of `ts`, in order. */
  function NamedAuthors(ts: seq<Track>): seq<string>
    decreases |ts|
  {
    if ts == [] then []
    else (if ts[0].author != "" then [ts[0].author] else []) + NamedAuthors(ts[1..])
  }

  /** One song start, in the shape the induction below needs. */
  lemma StartOne(st: QueueState, g: GuildId, t: Track)
    requires |History(st, g)| <= st.maxHistorySize
    ensures var st1 := SetCurrentSong(st, g, t);
            && History(st1, g) == LastN(History(st, g) + NamedAuthors([t]), st.maxHistorySize)
            && |History(st1, g)| <= st.maxHistorySize
            && st1.maxHistorySize == st.maxHistorySize
  {
    var h := History(st, g);
    assert NamedAuthors([t]) == (if t.author != "" then [t.author] else []) + NamedAuthors([]);
    if t.author == "" {
      assert h + NamedAuthors([t]) == h;
    }
  }

  lemma NamedAuthorsCons(ts: seq<Track>)
    requires ts != []
    ensures NamedAuthors(ts) == NamedAuthors([ts[0]]) + NamedAuthors(ts[1..])
  {
    assert NamedAuthors([ts[0]]) == (if ts[0].author != "" then [ts[0].author] else []) + NamedAuthors([]);
  }

  lemma LastNOfShort<T>(s: seq<T>, n: nat)
    requires |s| <= n
    ensures LastN(s, n) == s
  {
    assert s[|s| - |LastN(s, n)|..] == s;
  }

  /** Two trims in a row, the first after `first` and the second after `rest`. */
  lemma TrimTwice<T>(h: seq<T>, first: seq<T>, rest: seq<T>, m: nat)
    ensures LastN(LastN(h + first, m) + rest, m) == LastN(h + (first + rest), m)
  {
    LastNAppendAll(h + first, rest, m);
    assert h + first + rest == h + (first + rest);
  }

  /** Starting songs records their non-empty authors in play order, keeping
      the newest `maxHistorySize`. */
  lemma {:induction false} HistoryFollowsPlayOrder(st: QueueState, g: GuildId, ts: seq<Track>)
    requires |History(st, g)| <= st.maxHistorySize
    ensures History(StartAll(st, g, ts), g) == LastN(History(st, g) + NamedAuthors(ts), st.maxHistorySize)
    ensures StartAll(st, g, ts).maxHistorySize == st.maxHistorySize
    decreases |ts|
  {
    var m := st.maxHistorySize;
    var h := History(st, g);
    if ts == [] {
      assert h + NamedAuthors(ts) == h;
      LastNOfShort(h, m);
    } else {
      var st1 := SetCurrentSong(st, g, ts[0]);
      StartOne(st, g, ts[0]);
      HistoryFollowsPlayOrder(st1, g, ts[1..]);
      assert StartAll(st, g, ts) == StartAll(st1, g, ts[1..]);
      NamedAuthorsCons(ts);
      TrimTwice(h, NamedAuthors([ts[0]]), NamedAuthors(ts[1..]), m);
    }
  }

  /** While the bound is not reached, starting songs drops nothing. */
  lemma HistoryKeepsAllBelowBound(st: QueueState, g: GuildId, ts: seq<Track>)
    requires |History(st, g)| + |NamedAuthors(ts)| <= st.maxHistorySize
    ensures History(StartAll(st, g, ts), g) == History(st, g) + NamedAuthors(ts)
  {
    HistoryFollowsPlayOrder(st, g, ts);
    LastNOfShort(History(st, g) + NamedAuthors(ts), st.maxHistorySize);
  }

  /** Toggling a flag twice restores it. */
  lemma ToggleTwiceRestores(st: QueueState, g: GuildId)
    ensures GetReplayStatus(ToggleReplay(ToggleReplay(st, g).state, g).state, g) == GetReplayStatus(st, g)
    ensures GetRecommendationStatus(ToggleRecommendations(ToggleRecommendations(st, g).state, g).state, g)
            == GetRecommendationStatus(st, g)
  {
  }

  /** After teardown every query about the guild answers as for a guild never seen. */
  lemma CleanupResetsGuild(st: QueueState, g: GuildId, t: Track)
    ensures var r := CleanupGuild(st, g);
            && Queue(r, g) == [] && GetCurrentSong(r, g) == None
            && GetPlayHistory(r, g, None) == [] && !IsTrackInHistory(r, g, t)
            && !GetReplayStatus(r, g) && !GetRecommendationStatus(r, g)
            && GetTextChannel(r, g) == None
  {
  }
}

=== FILE: recommendations.dfy ===
/** The recommendation command: pick distinct authors from the guild's play
    history at random, search for "<author> music" for each, and build a
    batch of at most `count` tracks with no two sharing (title, author),
    taking at most one track per author. Searches are the oracle `search`;
    the random pick is any sample of the right size. */
module Recommendations {
  import opened Common
  import opened Tracks

  function AuthorQuery(author: string): string
  {
    author + " music"
  }

  /** Position of the first result whose (title, author) is not yet in the batch. */
  function FirstFresh(results: seq<Track>, batch: seq<Track>): (r: Option<nat>)
    ensures r.Some? ==> r.value < |results| && IdOf(results[r.value]) !in Ids(batch)
    ensures r.Some? ==> forall j :: 0 <= j < r.value ==> IdOf(results[j]) in Ids(batch)
    ensures r.None? ==> forall j :: 0 <= j < |results| ==> IdOf(results[j]) in Ids(batch)
    decreases |results|
  {
    if results == [] then None
    else if IdOf(results[0]) !in Ids(batch) then Some(0)
    else match FirstFresh(results[1..], batch)
      case None => None
      case Some(i) => Some(i + 1)
  }

  /** One author's turn: a raised or empty search adds nothing; otherwise the
      first result not already in the batch is added, if there is one. */
  function AddFor(author: string, search: string -> Search, batch: seq<Track>): (r: seq<Track>)
    ensures r == batch || (|r| == |batch| + 1 && r[..|batch|] == batch)
    ensures |r| == |batch| + 1 ==>
              && search(AuthorQuery(author)).Results?
              && r[|batch|] in search(AuthorQuery(author)).tracks
              && IdOf(r[|batch|]) !in Ids(batch)
    ensures search(AuthorQuery(author)).SearchRaised? ==> r == batch
    ensures var s := search(AuthorQuery(author));
            s.Results? ==>
              match FirstFresh(s.tracks, batch)
              case Some(i) => r == batch + [s.tracks[i]]
              case None => r == batch
  {
    match search(AuthorQuery(author))
    case SearchRaised => batch
    case Results(ts) =>
      match FirstFresh(ts, batch)
      case None => batch
      case Some(i) => batch + [ts[i]]
  }

  /** Adding a track whose identity is new keeps the identities distinct. */
  lemma AppendFreshId(batch: seq<Track>, t: Track)
    requires NoDups(Ids(batch))
    requires IdOf(t) !in Ids(batch)
    ensures NoDups(Ids(batch + [t]))
  {
    var ids := Ids(batch + [t]);
    forall i, j | 0 <= i < j < |ids|
      ensures ids[i] != ids[j]
    {
      if j == |batch| {
        assert ids[i] == Ids(batch)[i];
      } else {
        assert ids[i] == Ids(batch)[i] && ids[j] == Ids(batch)[j];
      }
    }
  }

  lemma AddForKeepsIdsDistinct(author: string, search: string -> Search, batch: seq<Track>)
    ensures NoDups(Ids(batch)) ==> NoDups(Ids(AddFor(author, search, batch)))
  {
    var next := AddFor(author, search, batch);
    if NoDups(Ids(batch)) && next != batch {
      AppendFreshId(batch, next[|batch|]);
      assert next == batch + [next[|batch|]];
    }
  }

  /** The batch after the authors' turns in order, stopping once it holds
      `count` tracks. */
  function BuildFrom(authors: seq<string>, count: int, search: string -> Search, batch: seq<Track>): (r: seq<Track>)
    ensures |batch| <= |r| && r[..|batch|] == batch
    ensures |r| <= Max(|batch|, count)
    ensures |r| <= |batch| + |authors|
    ensures NoDups(Ids(batch)) ==> NoDups(Ids(r))
    ensures forall k :: |batch| <= k < |r| ==> FoundFor(r[k], authors, search)
    decreases |authors|
  {
    if authors == [] || |batch| >= count then batch
    else
      var next := AddFor(authors[0], search, batch);
      AddForKeepsIdsDistinct(authors[0], search, batch);
      var r := BuildFrom(authors[1..], count, search, next);
      SourcesCarryOver(authors, search, batch, next, r);
      r
  }

  /** `t` is among the search results of one of the authors. */
  ghost predicate FoundFor(t: Track, authors: seq<string>, search: string -> Search)
  {
    exists a :: a in authors && search(AuthorQuery(a)).Results? && t in search(AuthorQuery(a)).tracks
  }

  lemma SourcesCarryOver(authors: seq<string>, search: string -> Search, batch: seq<Track>,
                         next: seq<Track>, r: seq<Track>)
    requires authors != []
    requires next == AddFor(authors[0], search, batch)
    requires |next| <= |r| && r[..|next|] == next
    requires forall k :: |next| <= k < |r| ==> FoundFor(r[k], authors[1..], search)
    ensures |batch| <= |r| && r[..|batch|] == batch
    ensures forall k :: |batch| <= k < |r| ==> FoundFor(r[k], authors, search)
  {
    assert r[..|batch|] == r[..|next|][..|batch|];
    forall k | |batch| <= k < |r|
      ensures FoundFor(r[k], authors, search)
    {
      if k < |next| {
        assert r[k] == next[|batch|];
        assert authors[0] in authors;
      } else {
        var a :| a in authors[1..] && search(AuthorQuery(a)).Results? && r[k] in search(AuthorQuery(a)).tracks;
        assert a in authors;
      }
    }
  }

  /** An author whose search raises is skipped without affecting the others:
      the batch is the one built as if that author had not been picked. */
  lemma {:induction false} RaisingAuthorIsSkipped(pre: seq<string>, a: string, post: seq<string>, count: int,
                                                 search: string -> Search, batch: seq<Track>)
    requires search(AuthorQuery(a)).SearchRaised?
    ensures BuildFrom(pre + [a] + post, count, search, batch) == BuildFrom(pre + post, count, search, batch)
    decreases |pre|
  {
    if pre == [] {
      assert pre + [a] + post == [a] + post;
      assert ([a] + post)[1..] == post;
      assert pre + post == post;
    } else if |batch| < count {
      var next := AddFor(pre[0], search, batch);
      assert (pre + [a] + post)[1..] == pre[1..] + [a] + post;
      assert (pre + post)[1..] == pre[1..] + post;
      RaisingAuthorIsSkipped(pre[1..], a, post, count, search, next);
    }
  }

  /** After the batch was built, author `a`'s turn is accounted for: their
      search raised, or one of their results was added, or every result of
      theirs was already in the batch. */
  ghost predicate Served(a: string, search: string -> Search, batch: seq<Track>, r: seq<Track>)
    requires |batch| <= |r|
  {
    var s := search(AuthorQuery(a));
    || s.SearchRaised?
    || (exists k :: |batch| <= k < |r| && r[k] in s.tracks)
    || (forall j :: 0 <= j < |s.tracks| ==> IdOf(s.tracks[j]) in Ids(r))
  }

  /** A batch that stayed below `count` skipped nobody: every picked author
      raised, contributed a track, or had only results already in the batch. */
  lemma {:induction false} BuildFromComplete(authors: seq<string>, count: int, search: string -> Search,
                                             batch: seq<Track>)
    ensures var r := BuildFrom(authors, count, search, batch);
            |r| < count ==> forall a :: a in authors ==> Served(a, search, batch, r)
    decreases |authors|
  {
    var r := BuildFrom(authors, count, search, batch);
    if authors != [] && |batch| < count && |r| < count {
      var next := AddFor(authors[0], search, batch);
      BuildFromComplete(authors[1..], count, search, next);
      assert r == BuildFrom(authors[1..], count, search, next);
      forall a | a in authors
        ensures Served(a, search, batch, r)
      {
        if a != authors[0] {
          assert a in authors[1..];
          assert Served(a, search, next, r);
        } else {
          FirstTurnServed(a, search, batch, next, r);
        }
      }
    }
  }

  lemma FirstTurnServed(a: string, search: string -> Search, batch: seq<Track>, next: seq<Track>, r: seq<Track>)
    requires next == AddFor(a, search, batch)
    requires |next| <= |r| && r[..|next|] == next
    ensures Served(a, search, batch, r)
  {
    var s := search(AuthorQuery(a));
    assert r[..|next|][..|batch|] == batch;
    if s.Results? {
      match FirstFresh(s.tracks, batch)
      case Some(i) =>
        assert r[|batch|] == next[|batch|] == s.tracks[i];
      case None =>
        forall j | 0 <= j < |s.tracks|
          ensures IdOf(s.tracks[j]) in Ids(r)
        {
          var ids := Ids(batch);
          var m :| 0 <= m < |ids| && ids[m] == IdOf(s.tracks[j]);
          assert r[m] == batch[m];
          assert Ids(r)[m] == IdOf(r[m]);
        }
    }
  }

  datatype RecReply =
    | NoHistory | NotInVoice | ConnectFailed | SampleRaised | NoRecommendations | Options(tracks: seq<Track>)

  /** The recommendation command. `hasPlayer` says whether the guild already
      has a voice client, `inVoice` whether the user is in a voice channel,
      and `connectOk` whether connecting succeeds. A negative count makes
      the sample raise. Returns the authors that were picked along with the
      reply. */
  method Recommend(history: seq<string>, count: int, hasPlayer: bool, inVoice: bool, connectOk: bool,
                   search: string -> Search)
    returns (picked: seq<string>, reply: RecReply)
    ensures history == [] <==> reply == NoHistory
    ensures reply == NotInVoice <==> history != [] && !hasPlayer && !inVoice
    ensures reply == ConnectFailed <==> history != [] && !hasPlayer && inVoice && !connectOk
    ensures reply == SampleRaised <==> history != [] && (hasPlayer || (inVoice && connectOk)) && count < 0
    ensures reply.Options? || reply == NoRecommendations ==>
              && count >= 0
              && |picked| == Min(count, |Distinct(history)|)
              && NoDups(picked)
              && (forall a :: a in picked ==> a in history)
    ensures reply == NoRecommendations ==> BuildFrom(picked, count, search, []) == []
    ensures reply.Options? ==>
              && reply.tracks == BuildFrom(picked, count, search, [])
              && 1 <= |reply.tracks| <= count
              && NoDups(Ids(reply.tracks))
  {
    picked := [];
    if history == [] {
      return picked, NoHistory;
    }
    if !hasPlayer && !inVoice {
      return picked, NotInVoice;
    }
    if !hasPlayer && !connectOk {
      return picked, ConnectFailed;
    }
    if count < 0 {
      return picked, SampleRaised;
    }
    var common := Distinct(history);
    var k := Min(count, |common|);
    PrefixIsSample(common, k);
    var sample: seq<string>;
    sample :| IsSample(sample, common, k);
    assert IsSample(sample, common, k);
    picked := sample;
    assert forall a :: a in common ==> a in Elems(history);
    assert Ids([]) == [];
    var batch := BuildFrom(picked, count, search, []);
    if batch == [] {
      reply := NoRecommendations;
    } else {
      reply := Options(batch);
    }
  }

  /** With a count at least the number of distinct authors, every author
      in the history is picked. */
  lemma {:induction false} LargeCountPicksEveryAuthor(history: seq<string>, count: int, picked: seq<string>)
    requires count >= |Distinct(history)|
    requires |picked| == Min(count, |Distinct(history)|) && NoDups(picked)
    requires forall a :: a in picked ==> a in history
    ensures Elems(picked) == Elems(history)
  {
    var common := Distinct(history);
    assert forall a :: a in picked ==> a in common by {
      forall a | a in picked
        ensures a in common
      {
        assert a in Elems(history);
      }
    }
    FullSampleIsPopulation(picked, common);
  }
}

=== FILE: tracks.dfy ===
/** The playable track as the playback engine hands it to the bot, the
    (title, author) identity used for recommendation dedup, and the outcome
    of one search call against the engine. */
module Tracks {
  import opened Common

  /** A resolved, playable track. `length` is the duration in milliseconds. */
  datatype Track = Track(
    title: string,
    author: string,
    length: int,
    uri: string,
    identifier: string,
    isStream: bool,
    artworkUrl: Option<string>)

  /** Recommendation identity: two tracks are "the same" when title and author agree. */
  datatype TrackId = TrackId(title: string, author: string)

  function IdOf(t: Track): TrackId
  {
    TrackId(t.title, t.author)
  }

  function Ids(ts: seq<Track>): seq<TrackId>
    ensures |Ids(ts)| == |ts|
    ensures forall i :: 0 <= i < |ts| ==> Ids(ts)[i] == IdOf(ts[i])
  {
    seq(|ts|, i requires 0 <= i < |ts| => IdOf(ts[i]))
  }

  /** One search call against the engine: it either raised, or returned a
      (possibly empty) list of tracks. */
  datatype Search = SearchRaised | Results(tracks: seq<Track>)
}

=== FILE: validators.dfy ===
/** Recognition of the two accepted YouTube link shapes: an anchored prefix
    match of `http(s)://`, an optional `www.`, then `youtube.com/watch?v=` or
    `youtu.be/`, then at least one video-id character. The word class `\w` is
    taken over ASCII here. */
module Validators {

  predicate StartsWith(s: string, p: string)
  {
    |p| <= |s| && s[..|p|] == p
  }

  /** One character of the class `[\w-]`, over ASCII. */
  predicate IdChar(c: char)
  {
    ('a' <= c <= 'z') || ('A' <= c <= 'Z') || ('0' <= c <= '9') || c == '_' || c == '-'
  }

  /** `s` begins with `body` and at least one id character follows it. */
  predicate FollowedById(s: string, body: string)
  {
    StartsWith(s, body) && |s| > |body| && IdChar(s[|body|])
  }

  /** Length of the matched `https?://`, trying the longer alternative first. */
  function SchemeLength(s: string): (r: nat)
    ensures r == 0 || r == 7 || r == 8
    ensures r > 0 ==> r <= |s|
  {
    if StartsWith(s, "https://") then 8
    else if StartsWith(s, "http://") then 7
    else 0
  }

  /** `(?:www\.)?` followed by `body` and an id character, with backtracking
      into the empty alternative when the `www.` branch fails. */
  predicate HostMatch(s: string, body: string)
  {
    (StartsWith(s, "www.") && FollowedById(s[4..], body)) || FollowedById(s, body)
  }

  function IsYoutubeUrl(url: string): bool
  {
    var k := SchemeLength(url);
    k > 0 && (HostMatch(url[k..], WatchPath) || HostMatch(url[k..], ShortPath))
  }

  const WatchPath := "youtube.com/watch?v="
  const ShortPath := "youtu.be/"

  /** The eight literal prefixes the two patterns expand to. */
  const YoutubePrefixes: seq<string> := [
    "https://www." + WatchPath, "https://" + WatchPath,
    "http://www." + WatchPath, "http://" + WatchPath,
    "https://www." + ShortPath, "https://" + ShortPath,
    "http://www." + ShortPath, "http://" + ShortPath]

  lemma FollowedByIdShift(s: string, k: nat, body: string, p: string)
    requires k <= |s| && StartsWith(s, p) && |p| == k
    ensures FollowedById(s[k..], body) <==> FollowedById(s, p + body)
  {
    if FollowedById(s[k..], body) {
      assert s[..k + |body|] == s[..k] + s[k..][..|body|];
    }
    if FollowedById(s, p + body) {
      assert s[k..][..|body|] == s[..k + |body|][k..];
    }
  }

  /** After a matched scheme `sc`, the optional `www.` and `body` match exactly
      when the link starts with one of the two literal expansions. */
  lemma HostMatchAsPrefixes(url: string, sc: string, body: string)
    requires StartsWith(url, sc)
    ensures HostMatch(url[|sc|..], body) <==>
            FollowedById(url, sc + "www." + body) || FollowedById(url, sc + body)
  {
    var k := |sc|;
    var rest := url[k..];
    FollowedByIdShift(url, k, body, sc);
    if StartsWith(rest, "www.") {
      assert StartsWith(url, sc + "www.") by {
        assert url[..k + 4] == url[..k] + rest[..4];
      }
      assert url[k + 4..] == rest[4..];
      FollowedByIdShift(url, k + 4, body, sc + "www.");
    }
    WwwPrefixShowsWww(url, sc, body);
  }

  lemma WwwPrefixShowsWww(url: string, sc: string, body: string)
    requires StartsWith(url, sc)
    ensures FollowedById(url, sc + "www." + body) ==> StartsWith(url[|sc|..], "www.")
  {
    var p := sc + "www." + body;
    var k := |sc|;
    if FollowedById(url, p) {
      assert url[..|p|] == p;
      assert url[k..][..4] == url[..|p|][k..k + 4];
      assert p[k..k + 4] == "www.";
    }
  }

  /** Each literal prefix fixes which scheme alternative matched. */
  lemma PrefixFixesScheme(url: string, i: nat)
    requires i < |YoutubePrefixes| && FollowedById(url, YoutubePrefixes[i])
    ensures SchemeLength(url) == if i % 4 < 2 then 8 else 7
  {
    var p := YoutubePrefixes[i];
    assert url[..|p|] == p;
    if i % 4 < 2 {
      assert p[..8] == "https://";
      assert url[..8] == p[..8];
    } else {
      assert p[..7] == "http://";
      assert url[..7] == p[..7];
      assert url[4] == p[4] == ':';
    }
  }

  lemma NoSchemeNoPrefix(url: string)
    requires SchemeLength(url) == 0
    ensures forall i :: 0 <= i < |YoutubePrefixes| ==> !FollowedById(url, YoutubePrefixes[i])
  {
    forall i | 0 <= i < |YoutubePrefixes|
      ensures !FollowedById(url, YoutubePrefixes[i])
    {
      if FollowedById(url, YoutubePrefixes[i]) {
        PrefixFixesScheme(url, i);
      }
    }
  }

  /** With the scheme matched, only the four prefixes of that scheme can apply. */
  lemma SchemeNarrowsPrefixes(url: string, base: nat)
    requires SchemeLength(url) > 0
    requires base == if SchemeLength(url) == 8 then 0 else 2
    ensures forall i :: 0 <= i < |YoutubePrefixes| && FollowedById(url, YoutubePrefixes[i]) ==>
              i == base || i == base + 1 || i == base + 4 || i == base + 5
  {
    forall i | 0 <= i < |YoutubePrefixes| && FollowedById(url, YoutubePrefixes[i])
      ensures i == base || i == base + 1 || i == base + 4 || i == base + 5
    {
      PrefixFixesScheme(url, i);
    }
  }

  /** The prefixes of the scheme that matched: with- and without `www.`,
      for each of the two paths. */
  lemma SchemeCase(url: string, scheme: string, base: nat)
    requires base == 0 || base == 2
    requires scheme == if base == 0 then "https://" else "http://"
    requires SchemeLength(url) == |scheme|
    ensures IsYoutubeUrl(url) <==>
              FollowedById(url, YoutubePrefixes[base]) || FollowedById(url, YoutubePrefixes[base + 1])
              || FollowedById(url, YoutubePrefixes[base + 4]) || FollowedById(url, YoutubePrefixes[base + 5])
  {
    var w := WatchPath;
    var b := ShortPath;
    assert StartsWith(url, scheme);
    assert IsYoutubeUrl(url) == (HostMatch(url[|scheme|..], w) || HostMatch(url[|scheme|..], b));
    HostMatchAsPrefixes(url, scheme, w);
    HostMatchAsPrefixes(url, scheme, b);
    PrefixTable(scheme, base);
  }

  lemma PrefixTable(scheme: string, base: nat)
    requires base == 0 || base == 2
    requires scheme == if base == 0 then "https://" else "http://"
    ensures YoutubePrefixes[base] == scheme + "www." + WatchPath
    ensures YoutubePrefixes[base + 1] == scheme + WatchPath
    ensures YoutubePrefixes[base + 4] == scheme + "www." + ShortPath
    ensures YoutubePrefixes[base + 5] == scheme + ShortPath
  {
    assert "https://www." == "https://" + "www.";
    assert "http://www." == "http://" + "www.";
  }

  /** A link is accepted exactly when it starts with one of the eight literal
      prefixes and an id character follows. */
  lemma {:induction false} YoutubeUrlIffPrefix(url: string)
    ensures IsYoutubeUrl(url) <==>
            exists i :: 0 <= i < |YoutubePrefixes| && FollowedById(url, YoutubePrefixes[i])
  {
    var k := SchemeLength(url);
    if k == 0 {
      NoSchemeNoPrefix(url);
    } else {
      var base := if k == 8 then 0 else 2;
      SchemeCase(url, if base == 0 then "https://" else "http://", base);
      SchemeNarrowsPrefixes(url, base);
    }
  }

  lemma AcceptsShortLink()
    ensures IsYoutubeUrl("https://youtu.be/dQw4w9WgXcQ")
  {
    assert "https://youtu.be/dQw4w9WgXcQ"[8..] == "youtu.be/dQw4w9WgXcQ";
  }

  /** A watch link with no id is not a link. */
  lemma RejectsMissingId()
    ensures !IsYoutubeUrl("https://www.youtube.com/watch?v=")
  {
    var url := "https://www.youtube.com/watch?v=";
    var rest := "www.youtube.com/watch?v=";
    HttpsSplits(url, rest);
    WwwThenBareWatchPath(rest);
    BareWatchHostRejected(rest);
  }

  /** `www.` followed by the watch path and nothing else matches neither form. */
  lemma BareWatchHostRejected(rest: string)
    requires StartsWith(rest, "www.") && rest[4..] == WatchPath && rest[0] == 'w'
    ensures !HostMatch(rest, WatchPath) && !HostMatch(rest, ShortPath)
  {
    assert rest[4..][5] == 'b';
  }

  lemma HttpsSplits(url: string, rest: string)
    requires url == "https://www.youtube.com/watch?v=" && rest == "www.youtube.com/watch?v="
    ensures SchemeLength(url) == 8 && url[8..] == rest
  {
    assert url[..8] == "https://";
  }

  lemma WwwThenBareWatchPath(rest: string)
    requires rest == "www.youtube.com/watch?v="
    ensures StartsWith(rest, "www.") && rest[4..] == WatchPath && rest[0] == 'w'
  {
  }

  /** A search phrase is not a link. */
  lemma RejectsSearchPhrase()
    ensures !IsYoutubeUrl("never gonna give you up")
  {
    var url := "never gonna give you up";
    assert url[0] != 'h';
    assert SchemeLength(url) == 0;
  }
}
